=== FILE: README.md ===
# simple-repo in Dafny

A model of the two deterministic parts of the `madulinux/simple-repo`
Laravel package.

- **BaseRepository query composition.** This covers the criteria stack
  (`pushCriteria`, `initCriteria`, `skipCriteria`, `applyCriteria`), the scope
  hook (`scopeQuery`, `applyScope`, `resetScope`) and each public operation's
  reset discipline. It also covers the condition compiler (`applyConditions`),
  the join compiler (`applyJoin`), the pagination arithmetic and the DataTables
  server-side request translation (`datatable` / `datatableIlike`).
- **RepositoryCreator naming and templating.** This covers class, interface
  and model names, `stripRepositoryName`, the ordered placeholder substitution
  into a stub, the target paths and the result code of `create`.

Eloquent is not modelled. The query a repository holds is an immutable log of
builder calls (`Builder.Query`, a `seq<Op>`); a fresh model is the empty log.
A terminal call (`get`, `count`, `find`, `create`, ...) is an `Exec(query,
terminal)`: the log and the call that ends it. Row counts come from the store,
so they are a function parameter `count: Query -> nat`. A criterion or scope
is an opaque tag that leaves one entry in the log. A non-empty log stands for
an Eloquent Builder (`Repository.HoldsBuilder`), which forwards neither the
Model method `save` nor the static `destroy`; both throw on it. Each repository operation
is a pure function from the state before the call (`Repository.Repo`) to what
it sends to the store and the state afterwards (`Repository.Call`).

The meaning of a where-chain is in `WhereLogic.Holds`. Each clause keeps its
own AND/OR, the first clause's combinator is ignored, and AND binds tighter
than OR. The truth of a single clause on a row is abstract. This lets the
model state what compiled conditions *mean*, not only which calls they make.

Modules, in dependency order:

- `Wrappers`: `Option` and `Result`.
- `Builder`: values, clauses, builder calls and terminals.
- `WhereLogic`: where-chain semantics.
- `Criteria`: the criteria collection.
- `Conditions`: `applyConditions`.
- `Joins`: `applyJoin`.
- `Pagination`: the pagination arithmetic.
- `Datatable`: the request translation.
- `Repository`: state and operations.
- `Strings`: PHP and Laravel string functions.
- `Creator`: the generator.

Source behaviour that the model keeps as written:

- The skip guard in `applyCriteria` (BaseRepository.php:1007) calls the
  setter `skipCriteria()`. The setter returns the repository, which is never
  `=== true`, so the guard never fires. The stack is always applied, even
  after `skipCriteria(true)`, and the flag is left set to true.
  `SkipFlagIsIgnored` states this.
- `pagination` divides by `per_page` after it has fetched the rows
  (BaseRepository.php:219). With the default `per_page = 0` this raises PHP's
  division-by-zero error instead of returning all rows, and the repository is
  not reset. `Pagination.Meta` returns
  `Failure(DivisionByZero)` for that case, and `Repository.Paginated` keeps
  the state.
- `to` is `page * per_page` and is not clamped to `total`.
- Join slots carry over from one descriptor to the next
  (BaseRepository.php:1125-1147). A descriptor array of an unhandled length is
  not skipped: it assigns nothing and, after a valid one, emits the previous
  join again.
- A column filter whose regex flag is neither `'true'` nor `'false'` uses the
  flag itself as the `REGEXP` pattern, not the search value.
- An order entry whose column index is not among the request's columns raises
  an undefined-key error, which Laravel turns into an exception. The model
  returns `Failure(UndefinedOrderColumn)` and does not reset.
- `applyConditions` with `or = true` makes every clause an `orWhere`,
  including the first. Such clauses are OR-ed with the filters that criteria
  and the scope added earlier (`WhereLogic.OrCallsEscapeEarlierFilters`).
- `datatableIlike` passes `$this->model` to `applyJoin`, not the local
  `$data`. The joins reach the rows query only when the two are the same
  builder object, which holds exactly when the prepared model is already a
  Builder (`Repository.HoldsBuilder`); `Datatable.Run` takes that as its
  `shared` argument. `pagination` shares its search filter the same way.
- `getClassName` tests `type == 'interface'`, but `getDirectory` tests
  `type == 'repository'`. Any other type gets the interface folder with the
  repository class name.

## Model

| member | source | states |
|---|---|---|
| Criteria.FindClass | src/Madulinux/Repositories/Eloquent/BaseRepository.php:990-992 | The class search finds nothing exactly when no stacked criterion has the class. Otherwise it returns the first position that has it. |
| Criteria.Push | src/Madulinux/Repositories/Eloquent/BaseRepository.php:988-1000 | The new criterion ends up last. The stack grows by one when its class is new. Otherwise the first criterion of that class is removed and the others keep their order. |
| Criteria.PushKeepsOnePerClass | src/Madulinux/Repositories/Eloquent/BaseRepository.php:988-1000 | Pushing keeps at most one criterion per class, and no earlier criterion has the new one's class. |
| Criteria.PushSameClassTwice | src/Madulinux/Repositories/Eloquent/BaseRepository.php:988-1000 | Pushing two criteria of one class leaves the same stack as pushing only the later one. |
| Criteria.ApplyAll | src/Madulinux/Repositories/Eloquent/BaseRepository.php:1011-1018 | Applying the stack keeps the query as a prefix and adds exactly one application per criterion, in insertion order. |
| Criteria.ApplyAllSplit | src/Madulinux/Repositories/Eloquent/BaseRepository.php:1014-1017 | Folding a stack in two halves is the same as folding it at once. |
| Repository.New | src/Madulinux/Repositories/Eloquent/BaseRepository.php:53-59 | A new repository has a fresh model, an empty criteria stack, the skip flag off and no scope. |
| Repository.ResetModel | src/Madulinux/Repositories/Eloquent/BaseRepository.php:79-82 | resetModel replaces the model by a fresh one and changes nothing else. |
| Repository.ResetScope | src/Madulinux/Repositories/Eloquent/BaseRepository.php:1028-1033 | resetScope drops the pending scope and changes nothing else. |
| Repository.ScopeQuery | src/Madulinux/Repositories/Eloquent/BaseRepository.php:1057-1062 | scopeQuery replaces any pending scope and does not touch the model until the scope is applied. |
| Repository.InitCriteria | src/Madulinux/Repositories/Eloquent/BaseRepository.php:950-955 | initCriteria empties the stack and turns the skip flag off, leaving model and scope alone. |
| Repository.SkipCriteria | src/Madulinux/Repositories/Eloquent/BaseRepository.php:961-965 | skipCriteria sets the flag to the given status and changes nothing else. |
| Repository.GetByCriteria | src/Madulinux/Repositories/Eloquent/BaseRepository.php:979-982 | getByCriteria applies the one criterion to the model at once: exactly one application is appended, and stack, scope and flag are untouched. |
| Repository.PushCriteria | src/Madulinux/Repositories/Eloquent/BaseRepository.php:988-1000 | Pushing drops only the first stacked criterion of the same class and keeps every other one in its place. With no such criterion it appends. The new one goes last, and the stack keeps at most one criterion per class. Model, scope and flag are untouched. |
| Repository.ApplyCriteria | src/Madulinux/Repositories/Eloquent/BaseRepository.php:1005-1021 | The guard never short-circuits. The model gains every stacked criterion in order, and the skip flag ends up true. |
| Repository.ApplyScope | src/Madulinux/Repositories/Eloquent/BaseRepository.php:1040-1048 | Without a scope the state is unchanged. With one, the model gains exactly the scope. |
| Repository.Prepare | src/Madulinux/Repositories/Eloquent/BaseRepository.php:135-136 | Reads apply the criteria first and the scope after them, and keep both. |
| Repository.Chain | src/Madulinux/Repositories/Eloquent/BaseRepository.php:895-944 | A chainable modifier adds one call to the model and leaves criteria, scope and flag alone. |
| Repository.SetVisibility | src/Madulinux/Repositories/Eloquent/BaseRepository.php:869-887 | hidden and visible never reassign the model. On a fresh Model they change no query; on a Builder they throw. |
| Repository.VisibilityKeepsModelFresh | src/Madulinux/Repositories/Eloquent/BaseRepository.php:869-887 | hidden on a fresh model keeps it a Model, so a following save succeeds. After any chained call both save and hidden throw. |
| Repository.WhereConditions | src/Madulinux/Repositories/Eloquent/BaseRepository.php:859-863 | whereConditions appends exactly the compiled conditions, as filters in entry order, each with the chosen combinator. The model before it is kept as a prefix, and stack, scope and flag are untouched. |
| Repository.All | src/Madulinux/Repositories/Eloquent/BaseRepository.php:133-144 | all sends the model with criteria then scope. Afterwards model and scope are both reset and the criteria stay. |
| Repository.Get | src/Madulinux/Repositories/Eloquent/BaseRepository.php:150-158 | get sends the same query as all but resets nothing: the prepared model and the scope remain. |
| Repository.Count | src/Madulinux/Repositories/Eloquent/BaseRepository.php:167-184 | count AND-s the where array in after the scope. It resets model and scope exactly when the reset argument is set. |
| Repository.Find | src/Madulinux/Repositories/Eloquent/BaseRepository.php:555-565 | find sends the prepared model. It resets the model only, so the scope survives. |
| Repository.FindByField | src/Madulinux/Repositories/Eloquent/BaseRepository.php:573-583 | findByField adds one equality filter after criteria and scope. It resets the model only. |
| Repository.FindWhere | src/Madulinux/Repositories/Eloquent/BaseRepository.php:591-602 | findWhere adds the compiled conditions with the chosen combinator. It resets the model only. |
| Repository.FindWhereList | src/Madulinux/Repositories/Eloquent/BaseRepository.php:610-656 | findWhereIn, findWhereNotIn and findWhereBetween each add one list filter. Each resets the model only. |
| Repository.FirstVariant | src/Madulinux/Repositories/Eloquent/BaseRepository.php:663-705 | first, firstOrCreate and firstOrNew send the prepared model with their own terminal call. They reset the model only, so the scope survives. |
| Repository.UpdateOrCreate | src/Madulinux/Repositories/Eloquent/BaseRepository.php:746-755 | updateOrCreate applies the scope but no criteria. It resets the model only. |
| Repository.Insert | src/Madulinux/Repositories/Eloquent/BaseRepository.php:521-549 | create and save apply neither criteria nor scope. save throws exactly when the model is already a Builder, and then nothing is reset. Otherwise model and scope are both reset. |
| Repository.Update | src/Madulinux/Repositories/Eloquent/BaseRepository.php:713-726 | update applies the scope, then findOrFail on the id, assigns every given attribute and saves. It throws exactly when the id is missing, and then nothing is reset. Otherwise both are reset. |
| Repository.UpdateBy | src/Madulinux/Repositories/Eloquent/BaseRepository.php:734-744 | updateBy runs a mass update under the scope and one equality filter. It resets both. |
| Repository.Delete | src/Madulinux/Repositories/Eloquent/BaseRepository.php:761-775 | delete destroys by id, or force-deletes the found row. A forced delete throws exactly when the id is missing. A plain delete throws exactly when the scoped model is a Builder, since destroy is not forwarded. After a throw nothing is reset; otherwise both are reset. |
| Repository.DeleteWhere | src/Madulinux/Repositories/Eloquent/BaseRepository.php:781-797 | deleteWhere applies the scope and the AND-ed conditions, deletes softly or by force, and resets both. |
| Repository.PluckColumn | src/Madulinux/Repositories/Eloquent/BaseRepository.php:107-127 | pluck and lists apply criteria but not the scope, and reset nothing. lists always throws, because Eloquent no longer has it; the criteria stay applied. |
| Repository.PluckLeavesCriteriaApplied | src/Madulinux/Repositories/Eloquent/BaseRepository.php:122-127 | After pluck the criteria stay in the model, so the next all applies them a second time. |
| Repository.Paginated | src/Madulinux/Repositories/Eloquent/BaseRepository.php:195-235 | The total is the count of the searched query, the response metadata is exactly the pagination arithmetic for page, per_page and that total, and the rows query adds the page window. It fails exactly when per_page is 0, and only then is nothing reset. |
| Repository.WindowMatchesMeta | src/Madulinux/Repositories/Eloquent/BaseRepository.php:210-215 | For a positive page size and any page, the skip argument is from - 1 and the take argument is to - from + 1. |
| Repository.WindowFetchesFromThroughTo | src/Madulinux/Repositories/Eloquent/BaseRepository.php:210-215 | For page 1 and beyond the skip is not negative, so the rows fetched start at row from of the response. |
| Repository.NonPositivePageFetchesFirstRows | src/Madulinux/Repositories/Eloquent/BaseRepository.php:210-215 | For page 0 or below the skip is negative and is clamped to 0, so the first per_page rows are fetched while from is at most 0. |
| Repository.DatatableQuery | src/Madulinux/Repositories/Eloquent/BaseRepository.php:449-513 | It fails exactly when an order entry names no column. On success recordsTotal counts the model with criteria and scope, and the rows query extends that model. Model and scope are reset on success, and the scope is kept when an order entry throws. |
| Repository.DatatableQueryTranslates | src/Madulinux/Repositories/Eloquent/BaseRepository.php:449-513 | The reply is the translation run on the model with criteria then scope. On failure the model keeps what the translation had built. |
| Repository.SkipFlagIsIgnored | src/Madulinux/Repositories/Eloquent/BaseRepository.php:1007-1009 | Setting the skip flag changes nothing about what applyCriteria adds to the model. |
| Repository.InitCriteriaMakesApplyIdentity | src/Madulinux/Repositories/Eloquent/BaseRepository.php:950-955 | Right after initCriteria, applying criteria leaves the model unchanged. |
| Repository.RepeatedPushAppliesLatestOnce | src/Madulinux/Repositories/Eloquent/BaseRepository.php:988-1021 | When the same class is pushed twice, the model gains only the later criterion, once and last. |
| Repository.AllIsRepeatable | src/Madulinux/Repositories/Eloquent/BaseRepository.php:133-144 | From a clean state, calling all twice sends the same query and leaves the same state. Nothing leaks between calls. |
| Repository.ScopeSurvivesFindButNotAll | src/Madulinux/Repositories/Eloquent/BaseRepository.php:555-565 | A scope set before find still reaches the next all. A scope consumed by all does not reach the next find. |
| Repository.GetReappliesCriteria | src/Madulinux/Repositories/Eloquent/BaseRepository.php:150-158 | Because get keeps the prepared model, a second get applies criteria and scope a second time. |
| Repository.DestroyNeedsCleanRepository | src/Madulinux/Repositories/Eloquent/BaseRepository.php:761-775 | A plain delete succeeds exactly when the repository is clean: no chained call and no pending scope. |
| Repository.SaveNeedsFreshModel | src/Madulinux/Repositories/Eloquent/BaseRepository.php:535-548 | A save succeeds exactly when no call is chained; a pending scope does not matter, because save never applies it. |
| Repository.ScopeLeaksPastFailedDestroy | src/Madulinux/Repositories/Eloquent/BaseRepository.php:761-775 | After scopeQuery, a plain delete throws with the scope still pending, so the next all runs on the scoped query and applies the scope a second time. |
| Conditions.Compile | src/Madulinux/Repositories/Eloquent/BaseRepository.php:1068-1085 | Each entry emits at most one clause, and all of them carry the call's one combinator. Without malformed entries every entry emits exactly one. |
| Conditions.Dispatch | src/Madulinux/Repositories/Eloquent/BaseRepository.php:1070-1083 | A closure gives a grouped clause, a 3-array gives (field, op, value), a 2-array gives (field, value) and a scalar gives (key, value). |
| Conditions.CompileAppend | src/Madulinux/Repositories/Eloquent/BaseRepository.php:1070-1084 | Compiling a concatenation is compiling each part, in order. |
| Conditions.MalformedIsIgnored | src/Madulinux/Repositories/Eloquent/BaseRepository.php:1073-1080 | An array entry of any length other than 2 or 3 changes nothing, wherever it stands. |
| Conditions.EmittedAllTrue | src/Madulinux/Repositories/Eloquent/BaseRepository.php:1068-1085 | Every emitted clause is true exactly when every well-formed entry's clause is true. |
| Conditions.EmittedSomeTrue | src/Madulinux/Repositories/Eloquent/BaseRepository.php:1068-1085 | Some emitted clause is true exactly when some well-formed entry's clause is true. |
| Conditions.AndConditionsMeanConjunction | src/Madulinux/Repositories/Eloquent/BaseRepository.php:1068-1085 | With or off, the compiled chain admits a row exactly when every well-formed entry holds. |
| Conditions.OrConditionsMeanDisjunction | src/Madulinux/Repositories/Eloquent/BaseRepository.php:1068-1085 | With or on, a non-empty compiled chain admits a row exactly when some well-formed entry holds. |
| WhereLogic.AndChainIsConjunction | src/Madulinux/Repositories/Eloquent/BaseRepository.php:466-477 | A chain of where calls admits a row exactly when all of its clauses hold. |
| WhereLogic.OrChainIsDisjunction | src/Madulinux/Repositories/Eloquent/BaseRepository.php:482-487 | A first where followed only by orWhere calls admits a row exactly when one of its clauses holds. |
| WhereLogic.OrCallsEscapeEarlierFilters | src/Madulinux/Repositories/Eloquent/BaseRepository.php:1072-1082 | orWhere calls added after earlier filters are OR-ed with them. A row that meets one added clause passes even when it fails all earlier ones. |
| Joins.Assign | src/Madulinux/Repositories/Eloquent/BaseRepository.php:1125-1133 | Each tuple arity overwrites exactly its own slots. All other slots keep the values earlier descriptors left. |
| Joins.KindOf | src/Madulinux/Repositories/Eloquent/BaseRepository.php:1136-1146 | 'left' gives a left join and 'right' a right join. Any other type gives an inner join. |
| Joins.Emit | src/Madulinux/Repositories/Eloquent/BaseRepository.php:1135-1147 | A join is emitted exactly when primary table, secondary table and secondary key are all present. It joins secondary.key to primary.key. |
| Joins.Compile | src/Madulinux/Repositories/Eloquent/BaseRepository.php:1114-1150 | applyJoin emits only join calls, at most one per descriptor. |
| Joins.RunAppend | src/Madulinux/Repositories/Eloquent/BaseRepository.php:1122-1149 | The descriptor loop on a concatenation runs the second part from the slots the first part left. |
| Joins.ScalarIsSkipped | src/Madulinux/Repositories/Eloquent/BaseRepository.php:1123 | A descriptor that is not an array emits nothing and changes no slot. |
| Joins.MalformedRepeatsJoin | src/Madulinux/Repositories/Eloquent/BaseRepository.php:1125-1147 | A tuple of an unhandled length changes no slot, and it emits the join the current slots describe. |
| Joins.MalformedAfterValidDuplicates | src/Madulinux/Repositories/Eloquent/BaseRepository.php:1125-1147 | A malformed tuple right after a valid one emits the valid one's join a second time. |
| Joins.PairInheritsEarlierSlots | src/Madulinux/Repositories/Eloquent/BaseRepository.php:1131-1132 | A pair after a valid tuple inherits that tuple's join type and primary side. |
| Pagination.CeilDiv | src/Madulinux/Repositories/Eloquent/BaseRepository.php:219 | The last page is the least integer not below total / per_page, for either sign of per_page. |
| Pagination.Window | src/Madulinux/Repositories/Eloquent/BaseRepository.php:210-215 | A window exists exactly for a positive page size. It skips (page-1)*per_page rows and takes per_page rows. |
| Pagination.Meta | src/Madulinux/Repositories/Eloquent/BaseRepository.php:200-229 | It fails exactly when per_page is 0. For per_page > 0, from = (page-1)*per_page+1 and to-from+1 = per_page. For per_page < 0, from = 1 and to = total. The last page brackets the total. |
| Pagination.PageHasRowsIffWithinLastPage | src/Madulinux/Repositories/Eloquent/BaseRepository.php:209-219 | For a positive page size and page >= 1, the first row of a page exists exactly when the page is at most the last page. |
| Pagination.SecondPageOfTwentyFive | src/Madulinux/Repositories/Eloquent/BaseRepository.php:207-229 | Page 2 of 25 rows at 10 per page is rows 11 to 20 of 3 pages. |
| Pagination.LastPageToIsNotClamped | src/Madulinux/Repositories/Eloquent/BaseRepository.php:211 | The last page of 25 rows at 10 per page claims rows up to 30. |
| Datatable.WhereList | src/Madulinux/Repositories/Eloquent/BaseRepository.php:415-431 | The where list is empty exactly when no column has a non-empty search value, and has at most one entry per column. |
| Datatable.WhereListHasSearched | src/Madulinux/Repositories/Eloquent/BaseRepository.php:415-431 | Every column with a non-empty search value contributes its filter to the where list. |
| Datatable.WhereListOnlyFilters | src/Madulinux/Repositories/Eloquent/BaseRepository.php:415-431 | Everything in the where list is the filter of some column. |
| Datatable.SearchableListMembers | src/Madulinux/Repositories/Eloquent/BaseRepository.php:433-437 | An id is globally searchable exactly when some column with searchable 'true' has that id. |
| Datatable.AliasList | src/Madulinux/Repositories/Eloquent/BaseRepository.php:411-413 | Aliases are built from named columns only, and there are none exactly when no column has a name. |
| Datatable.AliasListMembers | src/Madulinux/Repositories/Eloquent/BaseRepository.php:411-413 | A string is in the alias list exactly when it is "name as data" of some named column. |
| Datatable.AliasListOfNamedColumns | src/Madulinux/Repositories/Eloquent/BaseRepository.php:411-413 | When every column is named, the alias list has one entry per column, in column order. |
| Datatable.SelectList | src/Madulinux/Repositories/Eloquent/BaseRepository.php:404-440 | The select list is never empty. A non-empty columnDef is used as given. With no columnDef and no named column it is ['*']; with no columnDef and some named column it is the alias list. |
| Datatable.TranslateColumns | src/Madulinux/Repositories/Eloquent/BaseRepository.php:404-440 | The one-pass column loop yields exactly the select, where and searchable lists defined column by column. |
| Datatable.ColumnFilterMeaning | src/Madulinux/Repositories/Eloquent/BaseRepository.php:415-431 | A column filters exactly when its search value is non-empty. Regex 'false' gives equality, 'true' gives a %v% like, and any other flag gives REGEXP on the flag itself. |
| Datatable.ColumnGroupIsConjunction | src/Madulinux/Repositories/Eloquent/BaseRepository.php:465-478 | The column-filter group admits a row exactly when every column filter does. |
| Datatable.GlobalSearchIsDisjunction | src/Madulinux/Repositories/Eloquent/BaseRepository.php:480-489 | The global search group admits a row exactly when some searchable column contains the term. |
| Datatable.EmptyGlobalSearchAdmitsAll | src/Madulinux/Repositories/Eloquent/BaseRepository.php:480-489 | With no searchable column the global search group has no clause and admits every row. |
| Datatable.OrderOps | src/Madulinux/Repositories/Eloquent/BaseRepository.php:494-498 | Each order entry gives orderBy on its column's data field with its direction, in request order. It stops at and reports the first entry with an undefined column index. |
| Datatable.Filtered | src/Madulinux/Repositories/Eloquent/BaseRepository.php:455-489 | The filtered query extends the prepared model. Without a shared builder it contains no join. |
| Datatable.Run | src/Madulinux/Repositories/Eloquent/BaseRepository.php:449-513 | It fails exactly when some order entry is out of range. recordsTotal counts the prepared model. recordsFiltered is the filtered count when there is a where list or a search value, and recordsTotal otherwise. The rows query ends with skip(start), take(length). |
| Datatable.RowsAreFinished | src/Madulinux/Repositories/Eloquent/BaseRepository.php:494-502 | On success no order entry failed, and the rows query is the filtered query followed by the orderBy calls, skip and take. |
| Datatable.OrdersPrecedeWindow | src/Madulinux/Repositories/Eloquent/BaseRepository.php:494-502 | When every order entry names a column, each gives one orderBy on that column's data field, in request order, immediately before skip and take. |
| Datatable.JoinsReachRowsOnlyWhenShared | src/Madulinux/Repositories/Eloquent/BaseRepository.php:452-463 | When $data and $this->model are different builders, the rows query carries no join. |
| Strings.ReplaceAll | src/Madulinux/Repositories/Console/Commands/Creators/RepositoryCreator.php:178 | str_replace changes nothing when the search string is empty, and never lengthens the subject when the replacement is no longer than the search string. |
| Strings.ReplaceAllStep | src/Madulinux/Repositories/Console/Commands/Creators/RepositoryCreator.php:178 | One step of the scan: an occurrence at the front becomes the replacement and the scan resumes after it; otherwise the first character is kept and the scan resumes one further. |
| Strings.ReplaceWithoutOccurrence | src/Madulinux/Repositories/Console/Commands/Creators/RepositoryCreator.php:178 | A subject without an occurrence comes back unchanged. |
| Strings.ReplaceKeepsCharacters | src/Madulinux/Repositories/Console/Commands/Creators/RepositoryCreator.php:178 | Every character of the result comes from the subject or from the replacement. |
| Strings.ReplaceAtLeftmost | src/Madulinux/Repositories/Console/Commands/Creators/RepositoryCreator.php:178 | At the leftmost occurrence of a non-empty search string, the text before it is kept, the occurrence becomes the replacement, and the rest after it is processed the same way. |
| Strings.ReplaceAllSplitsAtFirst | src/Madulinux/Repositories/Console/Commands/Creators/RepositoryCreator.php:178 | For a non-empty search string, the result is the subject when strpos finds nothing, and otherwise the split at the position strpos reports. |
| Strings.ShorterReplacementShrinks | src/Madulinux/Repositories/Console/Commands/Creators/RepositoryCreator.php:178 | A strictly shorter replacement strictly shortens every subject that has an occurrence. |
| Strings.RemovalCanFormNewOccurrence | src/Madulinux/Repositories/Console/Commands/Creators/RepositoryCreator.php:178 | Removing "ab" from "aabb" leaves "ab": one pass can join the pieces around a removed occurrence into a new one, which stays. |
| Strings.ReplaceWhole | src/Madulinux/Repositories/Console/Commands/Creators/RepositoryCreator.php:240 | A subject that is exactly the search string becomes the replacement. |
| Strings.ReplaceByItself | src/Madulinux/Repositories/Console/Commands/Creators/RepositoryCreator.php:240 | Replacing a string by itself is the identity. |
| Strings.LastIndexOf | src/Madulinux/Repositories/Console/Commands/Creators/RepositoryCreator.php:150 | The search finds nothing exactly when there is no occurrence. Otherwise it finds an occurrence with none to its right. |
| Strings.ReplaceLast | src/Madulinux/Repositories/Console/Commands/Creators/RepositoryCreator.php:150 | Str::replaceLast rewrites only the rightmost occurrence, and leaves the subject unchanged when there is none or the search is empty. |
| Strings.Lower | src/Madulinux/Repositories/Console/Commands/Creators/RepositoryCreator.php:176 | strtolower keeps the length, maps each character, and leaves no upper-case ASCII letter. |
| Strings.LowerIdempotent | src/Madulinux/Repositories/Console/Commands/Creators/RepositoryCreator.php:176 | strtolower applied to lower-cased text changes nothing. |
| Strings.UcFirst | src/Madulinux/Repositories/Console/Commands/Creators/RepositoryCreator.php:180 | ucfirst keeps the length, upper-cases the first character and leaves the rest as it was. |
| Creator.DefaultConfig | src/config/repositories.php:12-72 | The repository namespace and path are the interface ones plus Eloquent, and models live in App\Models. |
| Creator.ClassName | src/Madulinux/Repositories/Console/Commands/Creators/RepositoryCreator.php:130-142 | The class name always ends with Repository, plus Interface for the interface kind. Repository is appended only when the name does not already end with it. |
| Creator.ClassNameIdempotent | src/Madulinux/Repositories/Console/Commands/Creators/RepositoryCreator.php:134-136 | Applying getClassName to its own result changes nothing. |
| Creator.InterfaceClassExtendsRepositoryClass | src/Madulinux/Repositories/Console/Commands/Creators/RepositoryCreator.php:137-139 | The interface class name is the repository class name followed by Interface. |
| Creator.InterfaceName | src/Madulinux/Repositories/Console/Commands/Creators/RepositoryCreator.php:147-153 | Only the rightmost Repository becomes Interface, and a name without Repository is unchanged. |
| Creator.InterfaceNameRewritesOnlyLast | src/Madulinux/Repositories/Console/Commands/Creators/RepositoryCreator.php:150 | RepositoryUserRepository becomes RepositoryUserInterface. |
| Creator.StripRepositoryName | src/Madulinux/Repositories/Console/Commands/Creators/RepositoryCreator.php:174-181 | The result is no longer than the name, and no character after the first is an upper-case letter. |
| Creator.StripIgnoresCase | src/Madulinux/Repositories/Console/Commands/Creators/RepositoryCreator.php:174-181 | Stripping a lower-cased name gives the same result as stripping the name. |
| Creator.StripWithoutRepository | src/Madulinux/Repositories/Console/Commands/Creators/RepositoryCreator.php:174-181 | A name without "repository" in any case is only lower-cased and capitalised. |
| Creator.StripCutsLeftmost | src/Madulinux/Repositories/Console/Commands/Creators/RepositoryCreator.php:174-181 | The leftmost "repository" of the lower-cased name is cut out: the text before it stays, and the text after it is stripped the same way before ucfirst. |
| Creator.StripUserRepository | src/Madulinux/Repositories/Console/Commands/Creators/RepositoryCreator.php:174-181 | UserRepository strips to User. |
| Creator.ModelName | src/Madulinux/Repositories/Console/Commands/Creators/RepositoryCreator.php:158-169 | A set, non-empty model is returned unchanged. Only otherwise is the name derived from the stripped repository name. |
| Creator.ZeroModelIsDerived | src/Madulinux/Repositories/Console/Commands/Creators/RepositoryCreator.php:162 | The model "0" is empty to PHP, so it is replaced by the derived name, while "00" is kept. |
| Creator.PopulateData | src/Madulinux/Repositories/Console/Commands/Creators/RepositoryCreator.php:186-203 | The six placeholders come in a fixed order with their configured values. The repository class is getClassName of the name, and the interface class is that plus Interface. The model name is the supplied model when usable, and the inflected stripped name otherwise. |
| Creator.PopulateStub | src/Madulinux/Repositories/Console/Commands/Creators/RepositoryCreator.php:234-244 | Without placeholders the stub is returned as is. Every character of the result comes from the stub or from a substituted value. |
| Creator.PopulateStubAppend | src/Madulinux/Repositories/Console/Commands/Creators/RepositoryCreator.php:239-241 | Substituting a list in two halves equals substituting it at once: the pairs apply in order, each to the previous result. |
| Creator.PopulateStubLast | src/Madulinux/Repositories/Console/Commands/Creators/RepositoryCreator.php:239-241 | The last pair is str_replace'd over the text the earlier pairs produced. |
| Creator.StubWithoutKeysIsUnchanged | src/Madulinux/Repositories/Console/Commands/Creators/RepositoryCreator.php:239-241 | A stub containing none of the keys comes back unchanged. |
| Creator.LaterKeyRewritesEarlierValue | src/Madulinux/Repositories/Console/Commands/Creators/RepositoryCreator.php:239-241 | A later key also rewrites text that an earlier value brought in. |
| Creator.Directory | src/Madulinux/Repositories/Console/Commands/Creators/RepositoryCreator.php:120-125 | Only the exact kind 'repository' gets the repository path. Every other kind gets the interface path. |
| Creator.Path | src/Madulinux/Repositories/Console/Commands/Creators/RepositoryCreator.php:208-211 | The path is the kind's directory, the separator, the kind's class name and .php, one after another: each segment sits at its place and the length is the sum of theirs. |
| Creator.UserRepositoryClass | src/Madulinux/Repositories/Console/Commands/Creators/RepositoryCreator.php:130-142 | User gets the class name UserRepository. |
| Creator.UserRepositoryInterfaceClass | src/Madulinux/Repositories/Console/Commands/Creators/RepositoryCreator.php:130-142 | UserRepository gets the interface class name UserRepositoryInterface. |
| Creator.DefaultRepositoryPath | src/Madulinux/Repositories/Console/Commands/Creators/RepositoryCreator.php:208-211 | With the default configuration, User gives app/Repositories/Eloquent/UserRepository.php, for any separator. |
| Creator.DefaultInterfacePath | src/Madulinux/Repositories/Console/Commands/Creators/RepositoryCreator.php:208-211 | With the default configuration, the interface of UserRepository goes to app/Repositories/UserRepositoryInterface.php, for any separator. |
| Creator.OtherKindMixesFolderAndName | src/Madulinux/Repositories/Console/Commands/Creators/RepositoryCreator.php:120-142 | A kind other than the two literals gets the interface folder with the repository class name. |
| Creator.Create | src/Madulinux/Repositories/Console/Commands/Creators/RepositoryCreator.php:78-114 | The result is 1 exactly when both writes report a non-zero byte count, and 0 otherwise. The writes are exactly createClass for the repository and then for the interface. makeDirectory is asked for the repository folder only, and only when it is missing. |
| Creator.Rendered | src/Madulinux/Repositories/Console/Commands/Creators/RepositoryCreator.php:234-248 | createClass writes to getPath of the kind. The content is the kind's stub with the model name substituted last, over the text the other five substitutions produced. A stub holding no placeholder is written unchanged. |
| Creator.CreateRequestsOnlyRepositoryFolder | src/Madulinux/Repositories/Console/Commands/Creators/RepositoryCreator.php:107-113 | When the two folders differ, the folder handed to makeDirectory is never the interface folder. |

## Left out

- Eloquent itself is not modelled. Queries are logs of calls, and what the store returns is a parameter. This covers rows, counts, `find`, `create`, `update` and `delete`.
- `whereLike` in pagination is one opaque `Like` clause; its SQL meaning is not modelled.
- `Criteria::apply` declares its first parameter as `Model` (Criteria/Criteria.php:19), while `applyCriteria` passes whatever `$this->model` holds, which is a query builder once any call has been chained. A concrete criterion that keeps that type hint then fails with a TypeError; criteria are opaque tags here, so that failure is not modelled.
- Criteria and scope closures are opaque tags. A criterion that reads the repository it is given is not modelled.
- `paginate`, `simplePaginate` and `cursorPaginate` are not modelled. They delegate to Laravel's paginators.
- Relation modifiers (`has`, `with`, `withCount`, `whereHas`, `inRandomOrder`) are covered only as generic chained calls (`Repository.Chain`), not one by one.
- Repository.SetVisibility: the field lists `setHidden` and `setVisible` store on a Model only affect serialisation, and they are not part of the state; a later resetModel discards them with the instance.
- Repository.WindowMatchesMeta: the lemma is about the skip/take arguments. Laravel clamps a negative offset to 0 (`Repository.EffectiveOffset`), so for page 0 or below the fetched rows are not rows from through to.
- `makeModel`, `newModel` and `getColumnListing` are not modelled. They rely on the service container, the `instanceof Model` check and the schema.
- `getTableName` and `getTableKey` become the `table` and `key` parameters.
- The datatable request is a record with typed fields, not PHP arrays. A missing `regex` key, non-string values, and descriptor arrays with string keys are not represented.
- The plain `datatable` method is truncated in the source, so it has no tail. It shares the translation with `datatableIlike`, with the like operator as a parameter.
- Order directions are passed through without validation; Eloquent's own check of the direction is not modelled.
- Pagination.CeilDiv: PHP computes `ceil` on a float, and the model uses exact integer arithmetic. The two differ only beyond 2^53, and PHP integer overflow is not modelled either.
- Creator.ModelName: the fallback's `Str::studly(Str::singular(...))` inflection is the parameter `inflect`, so the fallback result is stated only up to that function.
- Creator.Create: makeDirectory is called with the recursive flag (RepositoryCreator.php:112), so the filesystem also creates missing parent folders; with the default layout the interface folder is the parent of the Eloquent folder and comes into existence that way. The model records only the folder requested.
- Repository.Insert: assigning attributes on a Builder before save (BaseRepository.php:539-541) creates dynamic properties, which PHP 8.2 only deprecates. The model records the throw of the save call that follows and not the deprecation notice.
- Repository.DeleteWhere: with no condition and no scope the model is still a fresh Model, whose delete() on an unsaved instance sends nothing to the store. The model records that call as `DeleteAll` on the empty query and does not tell the two cases apart.
- Creator.Create: `file_put_contents` failures that Laravel turns into exceptions, the console messages and the `Failed` rethrow are not modelled. A write is only a returned byte count or none.
- `getStub` reads `<kind>.stub` from the package's resources; the stub texts are the parameter `stubs`.
- The console commands, the service provider, `GeneralException` and the repository interface's signatures are not modelled. They are I/O or declarations without behaviour.
- Strings.Lower, Strings.UcFirst: only ASCII letters change case, as in PHP 8.2 and later; multibyte characters are not modelled.
- Creator.StripRepositoryName: the function's own contract bounds the length and the case of the result only. The exact result for every name follows from `StripWithoutRepository` and `StripCutsLeftmost`, which go through str_replace's characterisation.
- Datatable.Filtered: the contract states the prefix and the absence of joins. What the two filter groups admit is stated on the groups themselves (`ColumnGroupIsConjunction`, `GlobalSearchIsDisjunction`), not on the whole query.

=== FILE: builder.dfy ===
/**
 * The query builder, seen from the repository: an immutable log of the
 * builder calls made on the pending query. A fresh model is the empty log.
 * What the store does with a log (rows, counts) is never interpreted here.
 */
module Builder {
  import opened Wrappers

  /** A PHP scalar as it reaches the builder: null or a string (numbers by their decimal text). */
  datatype Val = Null | Str(s: string)

  /** PHP's loose `$v != null`: both null and the empty string compare equal to null. */
  predicate Present(v: Val) {
    v.Str? && v.s != ""
  }

  /** PHP's string conversion in `.` concatenation: null becomes the empty string. */
  function Text(v: Val): string {
    if v.Str? then v.s else ""
  }

  /** `where` attaches with AND, `orWhere` with OR. */
  datatype Combinator = And | Or

  /** The predicate of one where-call. */
  datatype Clause =
    | Basic(field: Val, operator: Option<Val>, value: Val)  // where(field, value) or where(field, op, value)
    | Closure(tag: string)                                  // a caller's closure, opaque
    | Group(body: seq<Cond>)                                // a closure the repository builds itself
    | Like(fields: seq<string>, term: string)               // the whereLike macro
    | In(field: Val, values: seq<Val>)
    | NotIn(field: Val, values: seq<Val>)
    | Between(field: Val, values: seq<Val>)

  /** One where-call: its combinator and its predicate. */
  datatype Cond = Cond(comb: Combinator, clause: Clause)

  datatype JoinKind = LeftJoin | RightJoin | InnerJoin

  /** A criterion object: its class (the identity used for de-duplication) and its constructor arguments. */
  datatype Criterion = Criterion(cls: string, args: seq<string>)

  /** One builder call recorded in the log. */
  datatype Op =
    | Filter(cond: Cond)
    | Join(kind: JoinKind, table: string, first: string, second: string)
    | OrderBy(column: Val, direction: Val)
    | Skip(skip: int)
    | Take(take: int)
    | Limit(limit: int)
    | Select(columns: seq<string>)
    | Applied(criterion: Criterion)            // criterion->apply(model, repository)
    | Scoped(scope: string)                    // the scope closure, called on the model
    | Modifier(name: string, args: seq<string>) // has, with, withCount, whereHas, inRandomOrder

  /** The pending query: the builder calls made since the model was last made fresh. */
  type Query = seq<Op>

  /** A record's attributes, as passed to create/save/update. */
  type Attributes = seq<(string, Val)>

  /** The terminal call that sends a query to the store. */
  datatype Terminal =
    | Get(columns: seq<string>)
    | Count(column: string)
    | Find(id: Val, columns: seq<string>)
    | First(columns: seq<string>)
    | FirstOrCreate(attributes: Attributes)
    | FirstOrNew(attributes: Attributes)
    | Create(data: Attributes)
    | Save(data: Attributes)
    | FindAndUpdate(id: Val, data: Attributes)   // findOrFail, assign each attribute, save
    | UpdateAll(data: Attributes)
    | UpdateOrCreate(attributes: Attributes, values: Attributes)
    | Destroy(id: Val)
    | ForceDeleteFound(id: Val)
    | DeleteAll
    | ForceDeleteAll
    | Pluck(column: string, key: Option<string>)
    | Lists(column: string, key: Option<string>)

  /** What the store is asked to run: the pending log and the terminal call on it. */
  datatype Exec = Exec(query: Query, terminal: Terminal)

  /** The where-calls of a sequence of conditions, as log entries. */
  function Filters(conds: seq<Cond>): (r: Query)
    ensures |r| == |conds|
    ensures forall k :: 0 <= k < |conds| ==> r[k] == Filter(conds[k])
  {
    seq(|conds|, k requires 0 <= k < |conds| => Filter(conds[k]))
  }
}

=== FILE: conditions.dfy ===
/**
 * applyConditions: translate a PHP where-array into where/orWhere calls,
 * dispatching on each entry's shape and arity. One combinator serves the
 * whole call.
 */
module Conditions {
  import opened Wrappers
  import opened Builder
  import WhereLogic

  /** The value side of one where-array entry. */
  datatype Descriptor =
    | ClosureValue(tag: string)     // a Closure: becomes a grouped clause
    | ArrayValue(items: seq<Val>)   // a positional array: [field, value] or [field, op, value]
    | ScalarValue(v: Val)           // anything else: the entry's key is the field

  /** One `key => value` entry of the where-array. */
  datatype Entry = Entry(key: Val, value: Descriptor)

  function CombinatorOf(or: bool): Combinator {
    if or then Or else And
  }

  /** An array entry of an arity other than 2 or 3: it emits nothing. */
  predicate Malformed(e: Entry) {
    e.value.ArrayValue? && |e.value.items| != 2 && |e.value.items| != 3
  }

  /** The clause one entry emits, if any. */
  function EntryClause(e: Entry): Option<Clause> {
    match e.value
    case ClosureValue(tag) => Some(Closure(tag))
    case ArrayValue(items) =>
      if |items| == 3 then Some(Basic(items[0], Some(items[1]), items[2]))
      else if |items| == 2 then Some(Basic(items[0], None, items[1]))
      else None
    case ScalarValue(v) => Some(Basic(e.key, None, v))
  }

  /** The calls applyConditions makes for `entries`, in entry order. */
  function Compile(entries: seq<Entry>, or: bool): (r: seq<Cond>)
    ensures |r| <= |entries|
    ensures forall k :: 0 <= k < |r| ==> r[k].comb == CombinatorOf(or)
    ensures (forall k :: 0 <= k < |entries| ==> !Malformed(entries[k])) ==> |r| == |entries|
    decreases |entries|
  {
    if |entries| == 0 then []
    else
      var head := match EntryClause(entries[0])
        case None => []
        case Some(c) => [Cond(CombinatorOf(or), c)];
      head + Compile(entries[1..], or)
  }

  /** The per-entry dispatch: closure, 3-array, 2-array, scalar, anything else. */
  lemma Dispatch(e: Entry, or: bool)
    ensures e.value.ClosureValue? ==> Compile([e], or) == [Cond(CombinatorOf(or), Closure(e.value.tag))]
    ensures e.value.ArrayValue? && |e.value.items| == 3 ==>
      Compile([e], or) == [Cond(CombinatorOf(or), Basic(e.value.items[0], Some(e.value.items[1]), e.value.items[2]))]
    ensures e.value.ArrayValue? && |e.value.items| == 2 ==>
      Compile([e], or) == [Cond(CombinatorOf(or), Basic(e.value.items[0], None, e.value.items[1]))]
    ensures e.value.ScalarValue? ==> Compile([e], or) == [Cond(CombinatorOf(or), Basic(e.key, None, e.value.v))]
    ensures Malformed(e) ==> Compile([e], or) == []
  {
    assert [e][1..] == [];
  }

  /** Compiling a concatenation compiles each part, in order. */
  lemma {:induction false} CompileAppend(a: seq<Entry>, b: seq<Entry>, or: bool)
    ensures Compile(a + b, or) == Compile(a, or) + Compile(b, or)
    decreases |a|
  {
    if |a| == 0 {
      assert a + b == b;
    } else {
      assert (a + b)[0] == a[0];
      assert (a + b)[1..] == a[1..] + b;
      CompileAppend(a[1..], b, or);
    }
  }

  /** A malformed entry anywhere in the array changes nothing. */
  lemma MalformedIsIgnored(a: seq<Entry>, e: Entry, b: seq<Entry>, or: bool)
    requires Malformed(e)
    ensures Compile(a + [e] + b, or) == Compile(a + b, or)
  {
    CompileAppend(a + [e], b, or);
    CompileAppend(a, [e], or);
    CompileAppend(a, b, or);
    Dispatch(e, or);
  }

  /** The compiled chain's clauses, one per emitting entry, in entry order. */
  lemma CompileCons(entries: seq<Entry>, or: bool)
    requires |entries| > 0
    ensures EntryClause(entries[0]).None? ==> Compile(entries, or) == Compile(entries[1..], or)
    ensures EntryClause(entries[0]).Some? ==>
      Compile(entries, or) == [Cond(CombinatorOf(or), EntryClause(entries[0]).value)] + Compile(entries[1..], or)
  {
  }

  /** Every entry's clause true implies every emitted clause true. */
  lemma {:induction false} AllEntriesGiveAllEmitted(entries: seq<Entry>, or: bool, sat: Clause -> bool)
    requires forall k :: 0 <= k < |entries| && EntryClause(entries[k]).Some? ==> sat(EntryClause(entries[k]).value)
    ensures forall k :: 0 <= k < |Compile(entries, or)| ==> sat(Compile(entries, or)[k].clause)
    decreases |entries|
  {
    if |entries| > 0 {
      var tail := entries[1..];
      assert forall k :: 0 <= k < |tail| ==> tail[k] == entries[k + 1];
      AllEntriesGiveAllEmitted(tail, or, sat);
      CompileCons(entries, or);
      var r := Compile(entries, or);
      var rest := Compile(tail, or);
      if EntryClause(entries[0]).Some? {
        forall k | 0 <= k < |r| ensures sat(r[k].clause) {
          if k > 0 { assert r[k] == rest[k - 1]; }
        }
      }
    }
  }

  /** Every emitted clause true implies every entry's clause true. */
  lemma {:induction false} AllEmittedGiveAllEntries(entries: seq<Entry>, or: bool, sat: Clause -> bool)
    requires forall k :: 0 <= k < |Compile(entries, or)| ==> sat(Compile(entries, or)[k].clause)
    ensures forall k :: 0 <= k < |entries| && EntryClause(entries[k]).Some? ==> sat(EntryClause(entries[k]).value)
    decreases |entries|
  {
    if |entries| > 0 {
      var tail := entries[1..];
      CompileCons(entries, or);
      var r := Compile(entries, or);
      var rest := Compile(tail, or);
      if EntryClause(entries[0]).Some? {
        assert forall k :: 0 <= k < |rest| ==> rest[k] == r[k + 1];
        assert r[0].clause == EntryClause(entries[0]).value;
      }
      AllEmittedGiveAllEntries(tail, or, sat);
      forall k | 0 <= k < |entries| && EntryClause(entries[k]).Some? ensures sat(EntryClause(entries[k]).value) {
        if k > 0 { assert entries[k] == tail[k - 1]; }
      }
    }
  }

  /** Every emitted clause is true exactly when every emitting entry's clause is. */
  lemma EmittedAllTrue(entries: seq<Entry>, or: bool, sat: Clause -> bool)
    ensures (forall k :: 0 <= k < |Compile(entries, or)| ==> sat(Compile(entries, or)[k].clause))
        <==> (forall k :: 0 <= k < |entries| && EntryClause(entries[k]).Some? ==> sat(EntryClause(entries[k]).value))
  {
    var r := Compile(entries, or);
    var emitted := forall k :: 0 <= k < |r| ==> sat(r[k].clause);
    var given := forall k :: 0 <= k < |entries| && EntryClause(entries[k]).Some? ==> sat(EntryClause(entries[k]).value);
    if given {
      AllEntriesGiveAllEmitted(entries, or, sat);
    }
    if emitted {
      AllEmittedGiveAllEntries(entries, or, sat);
    }
    assert emitted <==> given;
  }

  /** A true emitted clause comes from an entry whose clause is true. */
  lemma {:induction false} SomeEmittedFromEntry(entries: seq<Entry>, or: bool, sat: Clause -> bool, j: int)
    requires 0 <= j < |Compile(entries, or)| && sat(Compile(entries, or)[j].clause)
    ensures exists k :: 0 <= k < |entries| && EntryClause(entries[k]).Some? && sat(EntryClause(entries[k]).value)
    decreases |entries|
  {
    var tail := entries[1..];
    CompileCons(entries, or);
    var r := Compile(entries, or);
    if EntryClause(entries[0]).Some? && j == 0 {
      assert EntryClause(entries[0]).Some? && sat(EntryClause(entries[0]).value);
    } else {
      var j' := if EntryClause(entries[0]).Some? then j - 1 else j;
      assert Compile(tail, or)[j'] == r[j];
      SomeEmittedFromEntry(tail, or, sat, j');
      var k :| 0 <= k < |tail| && EntryClause(tail[k]).Some? && sat(EntryClause(tail[k]).value);
      assert tail[k] == entries[k + 1];
    }
  }

  /** An entry whose clause is true emits a true clause. */
  lemma {:induction false} EntryGivesSomeEmitted(entries: seq<Entry>, or: bool, sat: Clause -> bool, i: int)
    requires 0 <= i < |entries| && EntryClause(entries[i]).Some? && sat(EntryClause(entries[i]).value)
    ensures exists k :: 0 <= k < |Compile(entries, or)| && sat(Compile(entries, or)[k].clause)
    decreases |entries|
  {
    var tail := entries[1..];
    CompileCons(entries, or);
    var r := Compile(entries, or);
    if i == 0 {
      assert sat(r[0].clause);
    } else {
      assert tail[i - 1] == entries[i];
      EntryGivesSomeEmitted(tail, or, sat, i - 1);
      var k :| 0 <= k < |Compile(tail, or)| && sat(Compile(tail, or)[k].clause);
      var k' := if EntryClause(entries[0]).Some? then k + 1 else k;
      assert r[k'] == Compile(tail, or)[k];
    }
  }

  /** Some emitted clause is true exactly when some emitting entry's clause is. */
  lemma EmittedSomeTrue(entries: seq<Entry>, or: bool, sat: Clause -> bool)
    ensures (exists k :: 0 <= k < |Compile(entries, or)| && sat(Compile(entries, or)[k].clause))
        <==> (exists k :: 0 <= k < |entries| && EntryClause(entries[k]).Some? && sat(EntryClause(entries[k]).value))
  {
    if exists k :: 0 <= k < |Compile(entries, or)| && sat(Compile(entries, or)[k].clause) {
      var j :| 0 <= j < |Compile(entries, or)| && sat(Compile(entries, or)[j].clause);
      SomeEmittedFromEntry(entries, or, sat, j);
    }
    if exists k :: 0 <= k < |entries| && EntryClause(entries[k]).Some? && sat(EntryClause(entries[k]).value) {
      var i :| 0 <= i < |entries| && EntryClause(entries[i]).Some? && sat(EntryClause(entries[i]).value);
      EntryGivesSomeEmitted(entries, or, sat, i);
    }
  }

  /** With `or = false` the compiled calls mean: every emitting entry holds. */
  lemma AndConditionsMeanConjunction(entries: seq<Entry>, sat: Clause -> bool)
    ensures WhereLogic.Holds(Compile(entries, false), sat)
        <==> forall k :: 0 <= k < |entries| && EntryClause(entries[k]).Some? ==> sat(EntryClause(entries[k]).value)
  {
    WhereLogic.AndChainIsConjunction(Compile(entries, false), sat);
    EmittedAllTrue(entries, false, sat);
  }

  /**
   * With `or = true` the compiled calls mean: some emitting entry holds
   * (and no filter at all when nothing is emitted).
   */
  lemma OrConditionsMeanDisjunction(entries: seq<Entry>, sat: Clause -> bool)
    ensures |Compile(entries, true)| == 0 ==> WhereLogic.Holds(Compile(entries, true), sat)
    ensures |Compile(entries, true)| > 0 ==>
      (WhereLogic.Holds(Compile(entries, true), sat) <==>
        exists k :: 0 <= k < |entries| && EntryClause(entries[k]).Some? && sat(EntryClause(entries[k]).value))
  {
    var r := Compile(entries, true);
    if |r| > 0 {
      assert forall k :: 0 <= k < |r[1..]| ==> r[1..][k] == r[k + 1];
      WhereLogic.OrChainIsDisjunction(r, sat);
      EmittedSomeTrue(entries, true, sat);
    }
  }
}

=== FILE: creator.dfy ===
/**
 * The naming and templating helpers of the `make:repository` generator:
 * class names, the model name, the ordered placeholder substitution into a
 * stub, the target paths and the result code of a run. Configuration is a
 * record, the filesystem is a pair of function parameters, and the
 * singular/studly inflection of the fallback model name is a parameter.
 */
module Creator {
  import opened Wrappers
  import opened Strings

  const RepositorySuffix := "Repository"
  const InterfaceSuffix := "Interface"

  /** The `repositories.*` configuration keys the generator reads. */
  datatype Config = Config(
    interfaceNamespace: string,
    interfacePath: string,
    repositoryNamespace: string,
    repositoryPath: string,
    modelNamespace: string)

  /** The published defaults, with `sep` standing for DIRECTORY_SEPARATOR. */
  function DefaultConfig(sep: string): (c: Config)
    ensures c.interfaceNamespace == "App\\Repositories"
    ensures c.repositoryNamespace == c.interfaceNamespace + "\\Eloquent"
    ensures c.repositoryPath == c.interfacePath + sep + "Eloquent"
    ensures c.modelNamespace == "App\\Models"
  {
    Config("App\\Repositories", "app" + sep + "Repositories",
           "App\\Repositories\\Eloquent", "app" + sep + "Repositories" + sep + "Eloquent",
           "App\\Models")
  }

  /**
   * getClassName: append "Repository" unless the name already ends with it,
   * then "Interface" when (and only when) the kind is exactly "interface".
   */
  function ClassName(repository: string, kind: string): (r: string)
    ensures kind != "interface" ==> EndsWith(r, RepositorySuffix)
    ensures kind == "interface" ==> EndsWith(r, RepositorySuffix + InterfaceSuffix)
    ensures EndsWith(repository, RepositorySuffix) ==>
      r == repository + (if kind == "interface" then InterfaceSuffix else "")
    ensures !EndsWith(repository, RepositorySuffix) ==>
      r == repository + RepositorySuffix + (if kind == "interface" then InterfaceSuffix else "")
  {
    var base := if EndsWith(repository, RepositorySuffix) then repository else repository + RepositorySuffix;
    assert EndsWith(base, RepositorySuffix) by {
      if !EndsWith(repository, RepositorySuffix) {
        assert base[|base| - |RepositorySuffix|..] == RepositorySuffix;
      }
    }
    if kind == "interface" then
      var r := base + InterfaceSuffix;
      assert r[|r| - |RepositorySuffix + InterfaceSuffix|..] == base[|base| - |RepositorySuffix|..] + InterfaceSuffix;
      r
    else base
  }

  /** The repository class name is a fixed point of getClassName. */
  lemma ClassNameIdempotent(repository: string)
    ensures ClassName(ClassName(repository, "repository"), "repository") == ClassName(repository, "repository")
  {
  }

  /** The interface class is the repository class with "Interface" appended. */
  lemma InterfaceClassExtendsRepositoryClass(repository: string)
    ensures ClassName(repository, "interface") == ClassName(repository, "repository") + InterfaceSuffix
  {
  }

  /** getInterfaceName: the rightmost "Repository" becomes "Interface". */
  function InterfaceName(repository: string): (r: string)
    ensures Absent(repository, RepositorySuffix) ==> r == repository
    ensures forall i :: OccursAt(repository, RepositorySuffix, i) &&
                        (forall j :: i < j ==> !OccursAt(repository, RepositorySuffix, j)) ==>
      r == repository[..i] + InterfaceSuffix + repository[i + |RepositorySuffix|..]
  {
    ReplaceLast(repository, RepositorySuffix, InterfaceSuffix)
  }

  /** Only the last of two occurrences is rewritten. */
  lemma InterfaceNameRewritesOnlyLast()
    ensures InterfaceName("RepositoryUserRepository") == "RepositoryUserInterface"
  {
    var s := "RepositoryUserRepository";
    assert OccursAt(s, RepositorySuffix, 14);
    assert forall j :: 14 < j ==> !OccursAt(s, RepositorySuffix, j);
    assert s[..14] + InterfaceSuffix + s[24..] == "RepositoryUserInterface";
  }

  /**
   * stripRepositoryName: lower-case everything, delete every "repository",
   * upper-case the first character.
   */
  function StripRepositoryName(repository: string): (r: string)
    ensures |r| <= |repository|
    ensures forall k :: 1 <= k < |r| ==> !IsUpper(r[k])
  {
    var lowered := Lower(repository);
    var stripped := ReplaceAll(lowered, "repository", "");
    ReplaceKeepsCharacters(lowered, "repository", "");
    assert forall k :: 0 <= k < |stripped| ==> !IsUpper(stripped[k]);
    UcFirst(stripped)
  }

  /** Only the letters matter, not their case. */
  lemma StripIgnoresCase(repository: string)
    ensures StripRepositoryName(Lower(repository)) == StripRepositoryName(repository)
  {
    LowerIdempotent(repository);
  }

  /** A name without "repository" in any case is only lower-cased and capitalised. */
  lemma StripWithoutRepository(repository: string)
    requires Absent(Lower(repository), "repository")
    ensures StripRepositoryName(repository) == UcFirst(Lower(repository))
  {
    ReplaceWithoutOccurrence(Lower(repository), "repository", "");
  }

  /**
   * The leftmost "repository" of the lower-cased name is cut out; the text
   * before it stays and the text after it is stripped the same way.
   */
  lemma StripCutsLeftmost(repository: string, i: nat)
    requires OccursAt(Lower(repository), "repository", i)
    requires forall j :: 0 <= j < i ==> !OccursAt(Lower(repository), "repository", j)
    ensures var lowered := Lower(repository);
      StripRepositoryName(repository) == UcFirst(lowered[..i] + ReplaceAll(lowered[i + 10..], "repository", ""))
  {
    var lowered := Lower(repository);
    ReplaceAtLeftmost(lowered, "repository", "", i);
    assert lowered[..i] + "" == lowered[..i];
  }

  lemma StripUserRepository()
    ensures StripRepositoryName("UserRepository") == "User"
  {
    LowerUserRepository();
    RemoveRepositoryFromUser();
    assert StripRepositoryName("UserRepository") == UcFirst("user");
    assert UcFirst("user") == [ToUpperChar('u')] + "ser";
  }

  lemma LowerUserRepository()
    ensures Lower("UserRepository") == "userrepository"
  {
    var lowered := Lower("UserRepository");
    assert forall k :: 0 <= k < 14 ==> lowered[k] == "userrepository"[k];
  }

  lemma RemoveRepositoryFromUser()
    ensures ReplaceAll("userrepository", "repository", "") == "user"
  {
    RemoveFromSerRepository();
    ReplaceAllStep("userrepository", "repository", "");
    assert "userrepository"[..10][0] != "repository"[0] && "userrepository"[1..] == "serrepository";
  }

  lemma RemoveFromSerRepository()
    ensures ReplaceAll("serrepository", "repository", "") == "ser"
  {
    RemoveFromErRepository();
    ReplaceAllStep("serrepository", "repository", "");
    assert "serrepository"[..10][0] != "repository"[0] && "serrepository"[1..] == "errepository";
  }

  lemma RemoveFromErRepository()
    ensures ReplaceAll("errepository", "repository", "") == "er"
  {
    RemoveFromRRepository();
    ReplaceAllStep("errepository", "repository", "");
    assert "errepository"[..10][0] != "repository"[0] && "errepository"[1..] == "rrepository";
  }

  lemma RemoveFromRRepository()
    ensures ReplaceAll("rrepository", "repository", "") == "r"
  {
    ReplaceAllStep("repository", "repository", "");
    assert "repository"[10..] == [];
    ReplaceAllStep("rrepository", "repository", "");
    assert "rrepository"[..10][1] != "repository"[1] && "rrepository"[1..] == "repository";
  }

  /** PHP's `isset($model) && !empty($model)` on an option value. */
  predicate Usable(model: Option<string>) {
    model.Some? && model.value != "" && model.value != "0"
  }

  /**
   * getModelName: the supplied model when usable, otherwise the inflected
   * stripped repository name.
   */
  function ModelName(repository: string, model: Option<string>, inflect: string -> string): (r: string)
    ensures Usable(model) ==> r == model.value
    ensures !Usable(model) ==> r == inflect(StripRepositoryName(repository))
  {
    if Usable(model) then model.value else inflect(StripRepositoryName(repository))
  }

  /** The model option "0" is empty to PHP, so the name is derived instead. */
  lemma ZeroModelIsDerived(repository: string, inflect: string -> string)
    ensures ModelName(repository, Some("0"), inflect) == inflect(StripRepositoryName(repository))
    ensures ModelName(repository, Some("00"), inflect) == "00"
  {
  }

  /** The placeholder keys, in the order they are substituted. */
  const Placeholders: seq<string> :=
    ["repository_namespace", "repository_class", "interface_namespace",
     "interface_class", "model_path", "model_name"]

  /** getPopulateData: placeholder/value pairs in substitution order. */
  function PopulateData(cfg: Config, repository: string, model: Option<string>, inflect: string -> string)
    : (r: seq<(string, string)>)
    ensures |r| == |Placeholders|
    ensures forall i :: 0 <= i < |r| ==> r[i].0 == Placeholders[i]
    ensures r[0].1 == cfg.repositoryNamespace && r[2].1 == cfg.interfaceNamespace && r[4].1 == cfg.modelNamespace
    ensures r[1].1 == ClassName(repository, "repository") && EndsWith(r[1].1, RepositorySuffix)
    ensures r[3].1 == r[1].1 + InterfaceSuffix
    ensures Usable(model) ==> r[5].1 == model.value
    ensures !Usable(model) ==> r[5].1 == inflect(StripRepositoryName(repository))
  {
    InterfaceClassExtendsRepositoryClass(repository);
    [(Placeholders[0], cfg.repositoryNamespace),
     (Placeholders[1], ClassName(repository, "repository")),
     (Placeholders[2], cfg.interfaceNamespace),
     (Placeholders[3], ClassName(repository, "interface")),
     (Placeholders[4], cfg.modelNamespace),
     (Placeholders[5], ModelName(repository, model, inflect))]
  }

  /** populateStub: str_replace each pair in turn, each over the previous result. */
  function PopulateStub(stub: string, data: seq<(string, string)>): (r: string)
    ensures |data| == 0 ==> r == stub
    ensures forall k :: 0 <= k < |r| ==> r[k] in stub || exists i :: 0 <= i < |data| && r[k] in data[i].1
    decreases |data|
  {
    if |data| == 0 then stub
    else
      ReplaceKeepsCharacters(stub, data[0].0, data[0].1);
      PopulateStub(ReplaceAll(stub, data[0].0, data[0].1), data[1..])
  }

  /** Substituting a list in two halves is substituting the whole list. */
  lemma {:induction false} PopulateStubAppend(stub: string, a: seq<(string, string)>, b: seq<(string, string)>)
    ensures PopulateStub(stub, a + b) == PopulateStub(PopulateStub(stub, a), b)
    decreases |a|
  {
    if |a| == 0 {
      assert a + b == b;
    } else {
      assert (a + b)[1..] == a[1..] + b;
      PopulateStubAppend(ReplaceAll(stub, a[0].0, a[0].1), a[1..], b);
    }
  }

  /**
   * The last pair is str_replace'd over everything the earlier pairs produced,
   * so each key is replaced in the text as it stands when its turn comes.
   */
  lemma PopulateStubLast(stub: string, data: seq<(string, string)>, key: string, value: string)
    ensures PopulateStub(stub, data + [(key, value)]) == ReplaceAll(PopulateStub(stub, data), key, value)
  {
    PopulateStubAppend(stub, data, [(key, value)]);
    assert [(key, value)][1..] == [];
  }

  /** A stub containing none of the keys comes back unchanged. */
  lemma {:induction false} StubWithoutKeysIsUnchanged(stub: string, data: seq<(string, string)>)
    requires forall i :: 0 <= i < |data| ==> Absent(stub, data[i].0)
    ensures PopulateStub(stub, data) == stub
  {
    if |data| > 0 {
      ReplaceWithoutOccurrence(stub, data[0].0, data[0].1);
      StubWithoutKeysIsUnchanged(stub, data[1..]);
    }
  }

  /** A later key also rewrites text an earlier value brought in. */
  lemma LaterKeyRewritesEarlierValue()
    ensures PopulateStub("repository_class", [("repository_class", "model_name"), ("model_name", "User")]) == "User"
  {
    var first := ("repository_class", "model_name");
    var second := ("model_name", "User");
    ReplaceWhole(first.0, first.1);
    ReplaceWhole(second.0, second.1);
    assert [first, second][1..] == [second] && [second][1..] == [];
  }

  /** getDirectory: the repository path only for the exact kind "repository". */
  function Directory(cfg: Config, kind: string): (r: string)
    ensures kind == "repository" ==> r == cfg.repositoryPath
    ensures kind != "repository" ==> r == cfg.interfacePath
  {
    if kind == "repository" then cfg.repositoryPath else cfg.interfacePath
  }

  /**
   * getPath: the directory of the kind, the separator, the class name of the
   * kind and ".php", one after another and nothing else.
   */
  function Path(cfg: Config, sep: string, repository: string, kind: string): (r: string)
    ensures var dir, name := Directory(cfg, kind), ClassName(repository, kind);
      && |r| == |dir| + |sep| + |name| + 4
      && r[..|dir|] == dir
      && r[|dir|..|dir| + |sep|] == sep
      && r[|dir| + |sep|..|r| - 4] == name
      && EndsWith(r, ".php")
  {
    var dir, name := Directory(cfg, kind), ClassName(repository, kind);
    var r := dir + sep + name + ".php";
    assert r[..|dir|] == dir;
    assert r[|dir|..|dir| + |sep|] == sep;
    assert r[|dir| + |sep|..|r| - 4] == name;
    assert r[|r| - 4..] == ".php";
    r
  }

  /** "User" gains the suffix. */
  lemma UserRepositoryClass()
    ensures ClassName("User", "repository") == "UserRepository"
  {
    assert !EndsWith("User", RepositorySuffix);
    assert "User" + RepositorySuffix == "UserRepository";
  }

  /** "UserRepository" keeps its suffix and gains "Interface". */
  lemma UserRepositoryInterfaceClass()
    ensures ClassName("UserRepository", "interface") == "UserRepositoryInterface"
  {
    var s := "UserRepository";
    assert s[|s| - |RepositorySuffix|..] == RepositorySuffix;
    assert s + InterfaceSuffix == "UserRepositoryInterface";
  }

  /** Appending two pieces is appending their concatenation. */
  lemma AppendPieces(a: string, b: string, c: string)
    ensures a + b + c == a + (b + c)
  {
  }

  /** The default layout puts a repository class in the Eloquent folder. */
  lemma DefaultRepositoryPath(sep: string)
    ensures Path(DefaultConfig(sep), sep, "User", "repository")
      == "app" + sep + "Repositories" + sep + "Eloquent" + sep + "UserRepository.php"
  {
    var dir := "app" + sep + "Repositories" + sep + "Eloquent";
    assert Directory(DefaultConfig(sep), "repository") == dir;
    UserRepositoryClass();
    AppendPieces(dir + sep, "UserRepository", ".php");
    assert "UserRepository" + ".php" == "UserRepository.php";
  }

  /** The default layout puts an interface one folder up. */
  lemma DefaultInterfacePath(sep: string)
    ensures Path(DefaultConfig(sep), sep, "UserRepository", "interface")
      == "app" + sep + "Repositories" + sep + "UserRepositoryInterface.php"
  {
    var dir := "app" + sep + "Repositories";
    assert Directory(DefaultConfig(sep), "interface") == dir;
    UserRepositoryInterfaceClass();
    AppendPieces(dir + sep, "UserRepositoryInterface", ".php");
    assert "UserRepositoryInterface" + ".php" == "UserRepositoryInterface.php";
  }

  /**
   * Any kind other than the two literals lands in the interface folder but
   * receives the repository class name.
   */
  lemma OtherKindMixesFolderAndName(cfg: Config, sep: string, repository: string, kind: string)
    requires kind != "repository" && kind != "interface"
    ensures Path(cfg, sep, repository, kind)
      == cfg.interfacePath + sep + ClassName(repository, "repository") + ".php"
  {
  }

  /** file_put_contents succeeded with a truthy byte count. */
  predicate Written(put: Option<nat>) {
    put.Some? && put.value != 0
  }

  /**
   * What a run asks of the filesystem: the folder handed to makeDirectory, if
   * any, the files written in order, and the result code.
   */
  datatype CreateRun = CreateRun(made: Option<string>, writes: seq<(string, string)>, code: int)

  /**
   * createClass: one file, its path and its populated stub (getStub reads
   * `<kind>.stub`). The model name goes in last, over the text the other five
   * pairs produced; a stub with no placeholder is written as it is.
   */
  function Rendered(cfg: Config, sep: string, repository: string, model: Option<string>,
                    inflect: string -> string, stubs: string -> string, kind: string): (r: (string, string))
    ensures r.0 == Path(cfg, sep, repository, kind)
    ensures var data := PopulateData(cfg, repository, model, inflect);
            r.1 == ReplaceAll(PopulateStub(stubs(kind), data[..5]), Placeholders[5], data[5].1)
    ensures (forall i :: 0 <= i < |Placeholders| ==> Absent(stubs(kind), Placeholders[i])) ==> r.1 == stubs(kind)
  {
    var data := PopulateData(cfg, repository, model, inflect);
    assert data == data[..5] + [(Placeholders[5], data[5].1)];
    PopulateStubLast(stubs(kind), data[..5], Placeholders[5], data[5].1);
    assert (forall i :: 0 <= i < |Placeholders| ==> Absent(stubs(kind), Placeholders[i])) ==> PopulateStub(stubs(kind), data) == stubs(kind) by {
      if forall i :: 0 <= i < |Placeholders| ==> Absent(stubs(kind), Placeholders[i]) {
        StubWithoutKeysIsUnchanged(stubs(kind), data);
      }
    }
    (Path(cfg, sep, repository, kind), PopulateStub(stubs(kind), data))
  }

  /**
   * create: ask for the repository folder when it is missing, write the
   * repository then the interface, and report 1 exactly when both writes
   * succeeded.
   */
  function Create(cfg: Config, sep: string, repository: string, model: Option<string>,
                  inflect: string -> string, stubs: string -> string,
                  isDirectory: string -> bool, put: (string, string) -> Option<nat>): (r: CreateRun)
    ensures r.code == 0 || r.code == 1
    ensures r.code == 1 <==> forall w :: w in r.writes ==> Written(put(w.0, w.1))
    ensures r.writes == [Rendered(cfg, sep, repository, model, inflect, stubs, "repository"),
                         Rendered(cfg, sep, repository, model, inflect, stubs, "interface")]
    ensures |r.writes| == 2
    ensures r.writes[0].0 == Path(cfg, sep, repository, "repository")
    ensures r.writes[1].0 == Path(cfg, sep, repository, "interface")
    ensures r.made.Some? <==> !isDirectory(cfg.repositoryPath)
    ensures r.made.Some? ==> r.made.value == cfg.repositoryPath
  {
    var dir := Directory(cfg, "repository");
    var made := if isDirectory(dir) then None else Some(dir);
    var repo := Rendered(cfg, sep, repository, model, inflect, stubs, "repository");
    var iface := Rendered(cfg, sep, repository, model, inflect, stubs, "interface");
    var code := if Written(put(iface.0, iface.1)) && Written(put(repo.0, repo.1)) then 1 else 0;
    CreateRun(made, [repo, iface], code)
  }

  /**
   * The folder handed to makeDirectory is never the interface folder itself
   * (its parents may still be created along the way).
   */
  lemma CreateRequestsOnlyRepositoryFolder(cfg: Config, sep: string, repository: string, model: Option<string>,
                                           inflect: string -> string, stubs: string -> string,
                                           isDirectory: string -> bool, put: (string, string) -> Option<nat>)
    requires cfg.interfacePath != cfg.repositoryPath
    ensures Create(cfg, sep, repository, model, inflect, stubs, isDirectory, put).made != Some(cfg.interfacePath)
  {
  }
}

=== FILE: criteria.dfy ===
/**
 * The criteria stack of BaseRepository: an ordered collection of criterion
 * objects, de-duplicated by class on push, applied in insertion order.
 */
module Criteria {
  import opened Wrappers
  import opened Builder

  /** No two stacked criteria share a class. */
  predicate OnePerClass(stack: seq<Criterion>) {
    forall i, j :: 0 <= i < j < |stack| ==> stack[i].cls != stack[j].cls
  }

  /** `i` is the first position holding a criterion of class `cls`. */
  predicate FirstOfClass(stack: seq<Criterion>, cls: string, i: int) {
    0 <= i < |stack| && stack[i].cls == cls && forall j :: 0 <= j < i ==> stack[j].cls != cls
  }

  /** The collection's `search` with a class test: the first key whose criterion has class `cls`. */
  function FindClass(stack: seq<Criterion>, cls: string): (r: Option<nat>)
    ensures r.None? <==> forall j :: 0 <= j < |stack| ==> stack[j].cls != cls
    ensures r.Some? ==> FirstOfClass(stack, cls, r.value)
    decreases |stack|
  {
    if |stack| == 0 then None
    else if stack[0].cls == cls then Some(0)
    else match FindClass(stack[1..], cls)
      case None => None
      case Some(i) => Some(i + 1)
  }

  /**
   * pushCriteria: drop the first criterion of the same class, if any, and
   * append the new one; everything else keeps its relative order.
   */
  function Push(stack: seq<Criterion>, c: Criterion): (r: seq<Criterion>)
    ensures |r| > 0 && r[|r| - 1] == c
    ensures (forall j :: 0 <= j < |stack| ==> stack[j].cls != c.cls) ==> r == stack + [c]
    ensures forall i :: FirstOfClass(stack, c.cls, i) ==> r == stack[..i] + stack[i + 1..] + [c]
  {
    match FindClass(stack, c.cls)
    case None => stack + [c]
    case Some(i) => stack[..i] + stack[i + 1..] + [c]
  }

  /** Pushing keeps the stack free of duplicate classes. */
  lemma PushKeepsOnePerClass(stack: seq<Criterion>, c: Criterion)
    requires OnePerClass(stack)
    ensures OnePerClass(Push(stack, c))
    ensures forall k :: 0 <= k < |Push(stack, c)| - 1 ==> Push(stack, c)[k].cls != c.cls
  {
    var r := Push(stack, c);
    match FindClass(stack, c.cls)
    case None =>
      assert r == stack + [c];
    case Some(i) =>
      assert r == stack[..i] + stack[i + 1..] + [c];
      // the survivors' positions in the old stack
      forall k | 0 <= k < |r| - 1
        ensures r[k] == stack[if k < i then k else k + 1]
      {
      }
      forall k | 0 <= k < |r| - 1
        ensures r[k].cls != c.cls
      {
        var o := if k < i then k else k + 1;
        assert r[k] == stack[o];
        if o < i {} else { assert stack[i].cls != stack[o].cls; }
      }
      forall a, b | 0 <= a < b < |r|
        ensures r[a].cls != r[b].cls
      {
        if b < |r| - 1 {
          var oa := if a < i then a else a + 1;
          var ob := if b < i then b else b + 1;
          assert r[a] == stack[oa] && r[b] == stack[ob] && oa < ob;
        }
      }
  }

  /** Pushing twice with the same class leaves only the later push, at the end. */
  lemma PushSameClassTwice(stack: seq<Criterion>, a: Criterion, b: Criterion)
    requires OnePerClass(stack) && a.cls == b.cls
    ensures Push(Push(stack, a), b) == Push(stack, b)
  {
    var s1 := Push(stack, a);
    PushKeepsOnePerClass(stack, a);
    assert FirstOfClass(s1, b.cls, |s1| - 1);
    assert Push(s1, b) == s1[..|s1| - 1] + [b];
    match FindClass(stack, a.cls)
    case None =>
      assert s1[..|s1| - 1] == stack;
    case Some(i) =>
      assert s1[..|s1| - 1] == stack[..i] + stack[i + 1..];
  }

  /**
   * applyCriteria's loop: thread the query through every stacked criterion,
   * in insertion order.
   */
  function ApplyAll(q: Query, stack: seq<Criterion>): (r: Query)
    ensures |r| == |q| + |stack|
    ensures r[..|q|] == q
    ensures forall i :: 0 <= i < |stack| ==> r[|q| + i] == Applied(stack[i])
    decreases |stack|
  {
    if |stack| == 0 then q else ApplyAll(q + [Applied(stack[0])], stack[1..])
  }

  /** Applying a stack in two halves is applying it at once. */
  lemma {:induction false} ApplyAllSplit(q: Query, a: seq<Criterion>, b: seq<Criterion>)
    ensures ApplyAll(q, a + b) == ApplyAll(ApplyAll(q, a), b)
  {
    var whole := ApplyAll(q, a + b);
    var parts := ApplyAll(ApplyAll(q, a), b);
    assert |whole| == |parts|;
    forall k | 0 <= k < |whole|
      ensures whole[k] == parts[k]
    {
      if k < |q| {
        assert whole[k] == whole[..|q|][k];
        assert ApplyAll(q, a)[k] == ApplyAll(q, a)[..|q|][k];
        assert parts[k] == parts[..|q| + |a|][k];
      } else if k < |q| + |a| {
        assert (a + b)[k - |q|] == a[k - |q|];
        assert parts[k] == parts[..|q| + |a|][k];
      } else {
        assert (a + b)[k - |q|] == b[k - |q| - |a|];
      }
    }
  }
}

=== FILE: datatable.dfy ===
/**
 * The server-side protocol of jQuery DataTables as BaseRepository speaks it
 * (datatable / datatableIlike): request columns become a select list, a list
 * of per-column filters and a list of globally searchable columns; the
 * request then drives counting, filtering, ordering and the page window.
 * The two entry points differ only in the pattern operator (`like` or
 * `ilike`), which is a parameter here.
 */
module Datatable {
  import opened Wrappers
  import opened Builder
  import Joins
  import WhereLogic

  const PlainLike := "like"
  const InsensitiveLike := "ilike"

  /** `columns[i].search`: the value (absent when null) and the regex flag as sent. */
  datatype ColumnSearch = ColumnSearch(value: Option<string>, regex: Val)

  /** One entry of the request's `columns`. */
  datatype Column = Column(data: string, name: Option<string>, searchable: Option<string>, search: Option<ColumnSearch>)

  /** One entry of the request's `order`: a column index and a direction. */
  datatype OrderEntry = OrderEntry(column: int, dir: Val)

  datatype Request = Request(
    columns: seq<Column>,
    columnDef: Option<seq<string>>,
    start: int,
    length: int,
    search: Option<string>,          // search.value
    order: seq<OrderEntry>,
    with: seq<string>,
    join: seq<Joins.JoinEntry>)

  /** What the call returns: the rows query and the two counts. */
  datatype Reply = Reply(rows: Exec, recordsTotal: nat, recordsFiltered: nat)

  /** An order entry naming a column the request does not have. */
  datatype DatatableError = UndefinedOrderColumn(index: int)

  /** The outcome, and the log `$this->model` holds when the call ends. */
  datatype Outcome = Outcome(result: Result<Reply, DatatableError>, model: Query)

  /** `$column['name'] ?? $column['data']`. */
  function ColumnId(c: Column): string {
    if c.name.Some? then c.name.value else c.data
  }

  /** A column whose search value is set and not empty. */
  predicate Searched(c: Column) {
    c.search.Some? && c.search.value.value.Some? && c.search.value.value.value != ""
  }

  /** The filter a column contributes: equality, a contains-pattern, or REGEXP. */
  function ColumnFilter(c: Column, like: string): Option<Clause> {
    if !Searched(c) then None
    else
      var v := c.search.value.value.value;
      var regex := c.search.value.regex;
      if regex == Str("false") then Some(Basic(Str(ColumnId(c)), None, Str(v)))
      else if regex == Str("true") then Some(Basic(Str(ColumnId(c)), Some(Str(like)), Str("%" + v + "%")))
      else Some(Basic(Str(ColumnId(c)), Some(Str("REGEXP")), regex))
  }

  /** The column's entry in the searchable list, if it is globally searchable. */
  function SearchableEntry(c: Column): seq<string> {
    if c.searchable == Some("true") then [ColumnId(c)] else []
  }

  /** The alias of a named column: `name as data`. */
  function Alias(c: Column): string
    requires c.name.Some?
  {
    c.name.value + " as " + c.data
  }

  function AliasEntry(c: Column): seq<string> {
    if c.name.Some? then [Alias(c)] else []
  }

  function AsSeq(o: Option<Clause>): seq<Clause> {
    if o.Some? then [o.value] else []
  }

  /** The per-column filters, in column order. */
  function WhereList(cols: seq<Column>, like: string): (r: seq<Clause>)
    ensures |r| <= |cols|
    ensures |r| == 0 <==> forall i :: 0 <= i < |cols| ==> !Searched(cols[i])
    decreases |cols|
  {
    if |cols| == 0 then []
    else
      var init := cols[..|cols| - 1];
      assert forall i :: 0 <= i < |init| ==> init[i] == cols[i];
      WhereList(init, like) + AsSeq(ColumnFilter(cols[|cols| - 1], like))
  }

  /** Every searched column's filter is in the where list. */
  lemma {:induction false} WhereListHasSearched(cols: seq<Column>, like: string)
    ensures forall i :: 0 <= i < |cols| && Searched(cols[i]) ==> ColumnFilter(cols[i], like).value in WhereList(cols, like)
    decreases |cols|
  {
    if |cols| > 0 {
      var init := cols[..|cols| - 1];
      WhereListHasSearched(init, like);
      var w := WhereList(cols, like);
      assert w == WhereList(init, like) + AsSeq(ColumnFilter(cols[|cols| - 1], like));
      forall i | 0 <= i < |cols| && Searched(cols[i])
        ensures ColumnFilter(cols[i], like).value in w
      {
        if i < |init| {
          assert init[i] == cols[i];
          assert ColumnFilter(init[i], like).value in WhereList(init, like);
        } else {
          assert ColumnFilter(cols[i], like).Some?;
        }
      }
    }
  }

  /** Everything in the where list is some column's filter. */
  lemma {:induction false} WhereListOnlyFilters(cols: seq<Column>, like: string)
    ensures forall x :: x in WhereList(cols, like) ==> exists i :: 0 <= i < |cols| && ColumnFilter(cols[i], like) == Some(x)
    decreases |cols|
  {
    if |cols| > 0 {
      var init := cols[..|cols| - 1];
      var last := ColumnFilter(cols[|cols| - 1], like);
      WhereListOnlyFilters(init, like);
      var w := WhereList(cols, like);
      assert w == WhereList(init, like) + AsSeq(last);
      forall x | x in w
        ensures exists i :: 0 <= i < |cols| && ColumnFilter(cols[i], like) == Some(x)
      {
        if x in WhereList(init, like) {
          var i :| 0 <= i < |init| && ColumnFilter(init[i], like) == Some(x);
          assert init[i] == cols[i];
        } else {
          assert x in AsSeq(last);
          assert last == Some(x);
        }
      }
    }
  }

  function SearchableList(cols: seq<Column>): (r: seq<string>)
    ensures |r| <= |cols|
    decreases |cols|
  {
    if |cols| == 0 then []
    else SearchableList(cols[..|cols| - 1]) + SearchableEntry(cols[|cols| - 1])
  }

  /** An id is globally searchable exactly when some column marked searchable has it. */
  lemma {:induction false} SearchableListMembers(cols: seq<Column>)
    ensures forall x :: x in SearchableList(cols) <==>
      exists i :: 0 <= i < |cols| && cols[i].searchable == Some("true") && ColumnId(cols[i]) == x
    decreases |cols|
  {
    if |cols| > 0 {
      var init := cols[..|cols| - 1];
      SearchableListMembers(init);
      assert SearchableList(cols) == SearchableList(init) + SearchableEntry(cols[|cols| - 1]);
      forall x ensures x in SearchableList(cols) <==>
        exists i :: 0 <= i < |cols| && cols[i].searchable == Some("true") && ColumnId(cols[i]) == x
      {
        if x in SearchableList(init) {
          var i :| 0 <= i < |init| && init[i].searchable == Some("true") && ColumnId(init[i]) == x;
          assert init[i] == cols[i];
        }
        if exists i :: 0 <= i < |cols| && cols[i].searchable == Some("true") && ColumnId(cols[i]) == x {
          var i :| 0 <= i < |cols| && cols[i].searchable == Some("true") && ColumnId(cols[i]) == x;
          if i < |init| {
            assert init[i] == cols[i];
          }
        }
      }
    }
  }

  /** The `name as data` aliases of the named columns, in column order. */
  function AliasList(cols: seq<Column>): (r: seq<string>)
    ensures |r| <= |cols|
    ensures |r| == 0 <==> forall i :: 0 <= i < |cols| ==> cols[i].name.None?
    decreases |cols|
  {
    if |cols| == 0 then []
    else
      var init := cols[..|cols| - 1];
      assert forall i :: 0 <= i < |init| ==> init[i] == cols[i];
      AliasList(init) + AliasEntry(cols[|cols| - 1])
  }


  /** A string is an alias exactly when some named column gives it. */
  lemma {:induction false} AliasListMembers(cols: seq<Column>)
    ensures forall x :: x in AliasList(cols) <==> exists i :: 0 <= i < |cols| && cols[i].name.Some? && Alias(cols[i]) == x
    decreases |cols|
  {
    if |cols| > 0 {
      var init := cols[..|cols| - 1];
      AliasListMembers(init);
      assert AliasList(cols) == AliasList(init) + AliasEntry(cols[|cols| - 1]);
      forall x ensures x in AliasList(cols) <==> exists i :: 0 <= i < |cols| && cols[i].name.Some? && Alias(cols[i]) == x
      {
        if x in AliasList(init) {
          var i :| 0 <= i < |init| && init[i].name.Some? && Alias(init[i]) == x;
          assert init[i] == cols[i];
        }
        if exists i :: 0 <= i < |cols| && cols[i].name.Some? && Alias(cols[i]) == x {
          var i :| 0 <= i < |cols| && cols[i].name.Some? && Alias(cols[i]) == x;
          if i < |init| {
            assert init[i] == cols[i];
          }
        }
      }
    }
  }

  /** When every column is named, the aliases are one per column, in column order. */
  lemma {:induction false} AliasListOfNamedColumns(cols: seq<Column>)
    requires forall i :: 0 <= i < |cols| ==> cols[i].name.Some?
    ensures |AliasList(cols)| == |cols|
    ensures forall i :: 0 <= i < |cols| ==> AliasList(cols)[i] == Alias(cols[i])
    decreases |cols|
  {
    if |cols| > 0 {
      var init := cols[..|cols| - 1];
      assert forall i :: 0 <= i < |init| ==> init[i] == cols[i];
      AliasListOfNamedColumns(init);
      assert AliasList(cols) == AliasList(init) + [Alias(cols[|cols| - 1])];
    }
  }

  /** `$columnDef == null`: absent, or an empty array (PHP's loose comparison). */
  predicate NoColumnDef(columnDef: Option<seq<string>>) {
    columnDef.None? || columnDef.value == []
  }

  /** The select list: the caller's columnDef, else the aliases; `['*']` when that is empty. */
  function SelectList(cols: seq<Column>, columnDef: Option<seq<string>>): (r: seq<string>)
    ensures |r| > 0
    ensures !NoColumnDef(columnDef) ==> r == columnDef.value
    ensures NoColumnDef(columnDef) && (forall i :: 0 <= i < |cols| ==> cols[i].name.None?) ==> r == ["*"]
    ensures NoColumnDef(columnDef) && (exists i :: 0 <= i < |cols| && cols[i].name.Some?) ==> r == AliasList(cols)
  {
    var chosen := if NoColumnDef(columnDef) then AliasList(cols) else columnDef.value;
    if chosen == [] then ["*"] else chosen
  }

  /** One more column extends each list by that column's entry. */
  lemma ListsGrow(cols: seq<Column>, i: int, like: string)
    requires 0 <= i < |cols|
    ensures AliasList(cols[..i + 1]) == AliasList(cols[..i]) + AliasEntry(cols[i])
    ensures WhereList(cols[..i + 1], like) == WhereList(cols[..i], like) + AsSeq(ColumnFilter(cols[i], like))
    ensures SearchableList(cols[..i + 1]) == SearchableList(cols[..i]) + SearchableEntry(cols[i])
  {
    assert cols[..i + 1][..i] == cols[..i];
  }

  /** The request loop as the source runs it: one pass over the columns. */
  method TranslateColumns(cols: seq<Column>, columnDef: Option<seq<string>>, like: string)
    returns (select: seq<string>, where: seq<Clause>, searchable: seq<string>)
    ensures select == SelectList(cols, columnDef)
    ensures where == WhereList(cols, like)
    ensures searchable == SearchableList(cols)
  {
    var aliases: seq<string> := [];
    where := [];
    searchable := [];
    var i := 0;
    while i < |cols|
      invariant 0 <= i <= |cols|
      invariant aliases == AliasList(cols[..i])
      invariant where == WhereList(cols[..i], like)
      invariant searchable == SearchableList(cols[..i])
    {
      ListsGrow(cols, i, like);
      aliases := aliases + AliasEntry(cols[i]);
      where := where + AsSeq(ColumnFilter(cols[i], like));
      searchable := searchable + SearchableEntry(cols[i]);
      i := i + 1;
    }
    assert cols[..|cols|] == cols;
    select := if NoColumnDef(columnDef) then aliases else columnDef.value;
    if select == [] {
      select := ["*"];
    }
  }

  /**
   * A column's filter: present exactly when its search value is non-empty;
   * equality for regex 'false', a contains-pattern with the like operator
   * for 'true', and otherwise REGEXP against the regex flag itself, not the
   * search value.
   */
  lemma ColumnFilterMeaning(c: Column, like: string)
    ensures ColumnFilter(c, like).Some? <==> Searched(c)
    ensures Searched(c) ==> ColumnFilter(c, like).value.Basic? && ColumnFilter(c, like).value.field == Str(ColumnId(c))
    ensures Searched(c) && c.search.value.regex == Str("false") ==>
      ColumnFilter(c, like).value == Basic(Str(ColumnId(c)), None, Str(c.search.value.value.value))
    ensures Searched(c) && c.search.value.regex == Str("true") ==>
      ColumnFilter(c, like).value == Basic(Str(ColumnId(c)), Some(Str(like)), Str("%" + c.search.value.value.value + "%"))
    ensures Searched(c) && c.search.value.regex != Str("true") && c.search.value.regex != Str("false") ==>
      ColumnFilter(c, like).value == Basic(Str(ColumnId(c)), Some(Str("REGEXP")), c.search.value.regex)
  {
  }

  /** The per-column filters, AND-ed inside one group. */
  function ColumnGroup(where: seq<Clause>): (r: seq<Cond>)
    ensures |r| == |where| && WhereLogic.AllAnd(r)
    ensures forall k :: 0 <= k < |r| ==> r[k].clause == where[k]
  {
    seq(|where|, k requires 0 <= k < |where| => Cond(And, where[k]))
  }

  /** The global search: `where` on the first searchable column, `orWhere` on the others. */
  function GlobalSearch(searchable: seq<string>, like: string, term: string): (r: seq<Cond>)
    ensures |r| == |searchable|
    ensures |r| > 0 ==> r[0].comb == And && WhereLogic.AllOr(r[1..])
    ensures forall k :: 0 <= k < |r| ==> r[k].clause == Basic(Str(searchable[k]), Some(Str(like)), Str("%" + term + "%"))
  {
    seq(|searchable|, k requires 0 <= k < |searchable| =>
      Cond(if k == 0 then And else Or, Basic(Str(searchable[k]), Some(Str(like)), Str("%" + term + "%"))))
  }

  /** The column-filter group admits a row exactly when every column filter does. */
  lemma ColumnGroupIsConjunction(where: seq<Clause>, sat: Clause -> bool)
    ensures WhereLogic.Holds(ColumnGroup(where), sat) <==> forall k :: 0 <= k < |where| ==> sat(where[k])
  {
    WhereLogic.AndChainIsConjunction(ColumnGroup(where), sat);
  }

  /** The global-search group admits a row exactly when some searchable column contains the term. */
  lemma GlobalSearchIsDisjunction(searchable: seq<string>, like: string, term: string, sat: Clause -> bool)
    requires |searchable| > 0
    ensures WhereLogic.Holds(GlobalSearch(searchable, like, term), sat)
      <==> exists k :: 0 <= k < |searchable| && sat(Basic(Str(searchable[k]), Some(Str(like)), Str("%" + term + "%")))
  {
    var g := GlobalSearch(searchable, like, term);
    WhereLogic.OrChainIsDisjunction(g, sat);
    if exists k :: 0 <= k < |searchable| && sat(Basic(Str(searchable[k]), Some(Str(like)), Str("%" + term + "%"))) {
      var k :| 0 <= k < |searchable| && sat(Basic(Str(searchable[k]), Some(Str(like)), Str("%" + term + "%")));
      assert sat(g[k].clause);
    }
  }

  /** With no searchable column the global-search group is empty and filters nothing. */
  lemma EmptyGlobalSearchAdmitsAll(like: string, term: string, sat: Clause -> bool)
    ensures GlobalSearch([], like, term) == []
    ensures WhereLogic.Holds(GlobalSearch([], like, term), sat)
  {
  }

  /** An order entry that names one of the request's columns. */
  predicate InRange(cols: seq<Column>, o: OrderEntry) {
    0 <= o.column < |cols|
  }

  /**
   * The orderBy calls, in request order; stops at the first entry whose
   * column index is undefined, reporting it.
   */
  function OrderOps(cols: seq<Column>, order: seq<OrderEntry>): (r: (seq<Op>, Option<int>))
    ensures |r.0| <= |order|
    ensures forall k :: 0 <= k < |r.0| ==>
      InRange(cols, order[k]) && r.0[k] == OrderBy(Str(cols[order[k].column].data), order[k].dir)
    ensures r.1.None? <==> forall k :: 0 <= k < |order| ==> InRange(cols, order[k])
    ensures r.1.None? ==> |r.0| == |order|
    ensures r.1.Some? ==> |r.0| < |order| && !InRange(cols, order[|r.0|]) && r.1.value == order[|r.0|].column
    decreases |order|
  {
    if |order| == 0 then ([], None)
    else if !InRange(cols, order[0]) then ([], Some(order[0].column))
    else
      var rest := OrderOps(cols, order[1..]);
      assert forall k :: 1 <= k < |order| ==> order[k] == order[1..][k - 1];
      ([OrderBy(Str(cols[order[0].column].data), order[0].dir)] + rest.0, rest.1)
  }

  /** A non-empty global search value. */
  predicate GlobalTerm(req: Request) {
    req.search.Some? && req.search.value != ""
  }

  /** The joins applyJoin makes for the request. */
  function JoinOps(req: Request, table: string, key: string): seq<Op> {
    if |req.join| > 0 then Joins.Compile(table, key, req.join) else []
  }

  /** No builder call in `q` is a join. */
  predicate NoJoin(q: Query) {
    forall k :: 0 <= k < |q| ==> !q[k].Join?
  }

  lemma NoJoinAppend(a: Query, b: Query)
    requires NoJoin(a) && NoJoin(b)
    ensures NoJoin(a + b)
  {
    forall k | 0 <= k < |a + b| ensures !(a + b)[k].Join? {
      if k >= |a| { assert (a + b)[k] == b[k - |a|]; }
    }
  }

  /**
   * The calls made after criteria and scope up to the filters: eager loads,
   * the select list, the joins when the builder is shared, the column-filter
   * group and the global-search group.
   */
  function FilterOps(req: Request, like: string, table: string, key: string, shared: bool): (t: Query)
    ensures |t| > 0
    ensures !shared ==> NoJoin(t)
  {
    var withOps := if |req.with| > 0 then [Modifier("with", req.with)] else [];
    var where := WhereList(req.columns, like);
    var columnOps := if |where| > 0 then [Filter(Cond(And, Group(ColumnGroup(where))))] else [];
    var searchOps := if GlobalTerm(req) then [Filter(Cond(And, Group(GlobalSearch(SearchableList(req.columns), like, req.search.value))))] else [];
    var joinOps := if shared then JoinOps(req, table, key) else [];
    var front := withOps + [Select(SelectList(req.columns, req.columnDef))];
    var back := columnOps + searchOps;
    assert !shared ==> NoJoin(front + joinOps + back) by {
      if !shared {
        NoJoinAppend(withOps, [Select(SelectList(req.columns, req.columnDef))]);
        NoJoinAppend(columnOps, searchOps);
        NoJoinAppend(front, joinOps);
        NoJoinAppend(front + joinOps, back);
      }
    }
    front + joinOps + back
  }

  /** The rows query up to the filters. */
  function Filtered(base: Query, req: Request, like: string, table: string, key: string, shared: bool): (q: Query)
    ensures |q| > |base| && q[..|base|] == base
    ensures !shared ==> forall k :: |base| <= k < |q| ==> !q[k].Join?
  {
    var t := FilterOps(req, like, table, key, shared);
    var q := base + t;
    assert q[..|base|] == base;
    assert forall k :: |base| <= k < |q| ==> q[k] == t[k - |base|];
    q
  }

  /** The rows query's tail: the orderBy calls, then skip and take. */
  function Finish(filtered: Query, orders: seq<Op>, start: int, length: int): (q: Query)
    ensures |q| == |filtered| + |orders| + 2 && q[..|filtered|] == filtered
    ensures q[|filtered|..|filtered| + |orders|] == orders
    ensures q[|q| - 2..] == [Skip(start), Take(length)]
  {
    var q := filtered + orders + [Skip(start), Take(length)];
    assert q[..|filtered|] == filtered;
    assert q[|filtered|..|filtered| + |orders|] == orders;
    q
  }

  /**
   * Everything after criteria and scope: `base` is the model's log at that
   * point. When `shared`, `$data` and `$this->model` are one builder and the
   * joins land in the rows query; otherwise they land only in `$this->model`.
   * `count` is the store's row count for a log.
   */
  function Run(base: Query, req: Request, like: string, table: string, key: string, shared: bool, count: Query -> nat): (r: Outcome)
    ensures r.result.Failure? <==> exists k :: 0 <= k < |req.order| && !InRange(req.columns, req.order[k])
    ensures r.result.Success? ==> r.result.value.recordsTotal == count(base)
    ensures r.result.Success? && |WhereList(req.columns, like)| == 0 && req.search.None? ==>
      r.result.value.recordsFiltered == r.result.value.recordsTotal
    ensures r.result.Success? && (|WhereList(req.columns, like)| > 0 || req.search.Some?) ==>
      r.result.value.recordsFiltered == count(Filtered(base, req, like, table, key, shared))
    ensures r.result.Success? ==> var q := r.result.value.rows.query;
      r.result.value.rows.terminal == Get(["*"])
      && |q| >= |base| + 3 && q[..|base|] == base
      && q[|q| - 2..] == [Skip(req.start), Take(req.length)]
  {
    var filtered := Filtered(base, req, like, table, key, shared);
    var recordsTotal := count(base);
    var recordsFiltered := if |WhereList(req.columns, like)| > 0 || req.search.Some? then count(filtered) else recordsTotal;
    var orders := OrderOps(req.columns, req.order);
    if orders.1.Some? then
      Outcome(Failure(UndefinedOrderColumn(orders.1.value)),
              if shared then filtered + orders.0 else base + JoinOps(req, table, key))
    else
      var rows := Finish(filtered, orders.0, req.start, req.length);
      assert rows[..|base|] == rows[..|filtered|][..|base|];
      Outcome(Success(Reply(Exec(rows, Get(["*"])), recordsTotal, recordsFiltered)),
              if shared then rows else base + JoinOps(req, table, key))
  }

  /** On success, the rows query is the filtered query with the orderBy calls, skip and take after it. */
  lemma RowsAreFinished(base: Query, req: Request, like: string, table: string, key: string, shared: bool,
                        count: Query -> nat)
    requires Run(base, req, like, table, key, shared, count).result.Success?
    ensures OrderOps(req.columns, req.order).1.None?
    ensures Run(base, req, like, table, key, shared, count).result.value.rows.query
      == Finish(Filtered(base, req, like, table, key, shared), OrderOps(req.columns, req.order).0, req.start, req.length)
  {
  }

  /**
   * Each order entry becomes one orderBy, in request order, just before skip
   * and take (combine with RowsAreFinished for the datatable's rows query).
   */
  lemma OrdersPrecedeWindow(filtered: Query, cols: seq<Column>, order: seq<OrderEntry>, start: int, length: int)
    requires forall k :: 0 <= k < |order| ==> InRange(cols, order[k])
    ensures var q := Finish(filtered, OrderOps(cols, order).0, start, length);
      |q| == |filtered| + |order| + 2
      && forall k :: 0 <= k < |order| ==>
           q[|q| - 2 - |order| + k] == OrderBy(Str(cols[order[k].column].data), order[k].dir)
  {
    var orders := OrderOps(cols, order).0;
    var q := Finish(filtered, orders, start, length);
    assert |orders| == |order|;
    forall k | 0 <= k < |order|
      ensures q[|q| - 2 - |order| + k] == OrderBy(Str(cols[order[k].column].data), order[k].dir)
    {
      assert q[|filtered| + k] == q[|filtered|..|filtered| + |orders|][k];
    }
  }

  lemma FinishAddsNoJoin(filtered: Query, orders: seq<Op>, start: int, length: int, from: nat)
    requires forall k :: from <= k < |filtered| ==> !filtered[k].Join?
    requires forall k :: 0 <= k < |orders| ==> orders[k].OrderBy?
    ensures var q := Finish(filtered, orders, start, length); forall k :: from <= k < |q| ==> !q[k].Join?
  {
    var q := Finish(filtered, orders, start, length);
    forall k | from <= k < |q| ensures !q[k].Join? {
      if k < |filtered| {
        assert q[k] == q[..|filtered|][k];
      } else if k < |filtered| + |orders| {
        assert q[k] == q[|filtered|..|filtered| + |orders|][k - |filtered|];
      } else {
        assert q[k] == q[|q| - 2..][k - (|q| - 2)];
      }
    }
  }

  /** Without a shared builder the rows query carries no join: applyJoin only reached `$this->model`. */
  lemma JoinsReachRowsOnlyWhenShared(base: Query, req: Request, like: string, table: string, key: string, count: Query -> nat)
    requires Run(base, req, like, table, key, false, count).result.Success?
    ensures var q := Run(base, req, like, table, key, false, count).result.value.rows.query;
      forall k :: |base| <= k < |q| ==> !q[k].Join?
  {
    var filtered := Filtered(base, req, like, table, key, false);
    var orders := OrderOps(req.columns, req.order);
    assert forall k :: 0 <= k < |orders.0| ==> orders.0[k].OrderBy?;
    FinishAddsNoJoin(filtered, orders.0, req.start, req.length, |base|);
  }
}

=== FILE: joins.dfy ===
/**
 * applyJoin: translate join descriptors into join calls. Five slots (join
 * type, primary table and key, secondary table and key) live across the whole
 * loop; each descriptor overwrites only the slots its arity names.
 */
module Joins {
  import opened Wrappers
  import opened Builder

  /** One element of the join array: a positional tuple, or anything else. */
  datatype JoinEntry = Scalar(v: Val) | Tuple(items: seq<Val>)

  /** The loop variables of applyJoin. */
  datatype Slots = Slots(joinType: Val, primaryTable: Val, primaryKey: Val, secondaryTable: Val, secondaryKey: Val)

  /** Before the loop: the model's own table and key, a left join, no secondary side. */
  function Initial(table: string, key: string): Slots {
    Slots(Str("left"), Str(table), Str(key), Null, Null)
  }

  /** The `list(...) = $value` destructuring chosen by the tuple's arity. */
  function Assign(s: Slots, items: seq<Val>): (r: Slots)
    ensures |items| == 5 ==> r == Slots(items[0], items[1], items[2], items[3], items[4])
    ensures |items| == 4 || |items| == 3 ==> r.joinType == items[0] && r.secondaryTable == items[1] && r.secondaryKey == items[2]
    ensures |items| == 4 ==> r.primaryKey == items[3]
    ensures |items| == 2 ==> r.secondaryTable == items[0] && r.secondaryKey == items[1]
    // carried over from earlier descriptors
    ensures |items| != 5 ==> r.primaryTable == s.primaryTable
    ensures |items| != 5 && |items| != 4 ==> r.primaryKey == s.primaryKey
    ensures |items| == 2 ==> r.joinType == s.joinType
    ensures |items| < 2 || |items| > 5 ==> r == s
  {
    if |items| == 5 then Slots(items[0], items[1], items[2], items[3], items[4])
    else if |items| == 4 then s.(joinType := items[0], secondaryTable := items[1], secondaryKey := items[2], primaryKey := items[3])
    else if |items| == 3 then s.(joinType := items[0], secondaryTable := items[1], secondaryKey := items[2])
    else if |items| == 2 then s.(secondaryTable := items[0], secondaryKey := items[1])
    else s
  }

  /** The switch on the join type. */
  function KindOf(joinType: Val): (k: JoinKind)
    ensures k == LeftJoin <==> joinType == Str("left")
    ensures k == RightJoin <==> joinType == Str("right")
  {
    if joinType == Str("left") then LeftJoin
    else if joinType == Str("right") then RightJoin
    else InnerJoin
  }

  /**
   * The join the current slots produce: emitted only when the primary table
   * and both secondary slots are non-null; joins `secondary.key` to
   * `primary.key`.
   */
  function Emit(s: Slots): (r: Option<Op>)
    ensures r.Some? <==> Present(s.primaryTable) && Present(s.secondaryTable) && Present(s.secondaryKey)
    ensures r.Some? ==> r.value == Join(KindOf(s.joinType), s.secondaryTable.s,
                                        s.secondaryTable.s + "." + s.secondaryKey.s,
                                        s.primaryTable.s + "." + Text(s.primaryKey))
  {
    if Present(s.primaryTable) && Present(s.secondaryTable) && Present(s.secondaryKey) then
      Some(Join(KindOf(s.joinType), Text(s.secondaryTable),
                Text(s.secondaryTable) + "." + Text(s.secondaryKey),
                Text(s.primaryTable) + "." + Text(s.primaryKey)))
    else None
  }

  /** Every emitted call is a join onto a named table. */
  predicate AllJoins(ops: seq<Op>) {
    forall k :: 0 <= k < |ops| ==> ops[k].Join? && ops[k].table != ""
  }

  /** The join calls the slots produce: none or one. */
  function Emitted(s: Slots): seq<Op> {
    match Emit(s) case None => [] case Some(j) => [j]
  }

  /** One loop iteration: non-arrays are skipped, tuples assign and maybe emit. */
  function Step(s: Slots, e: JoinEntry): (Slots, seq<Op>) {
    match e
    case Scalar(_) => (s, [])
    case Tuple(items) => (Assign(s, items), Emitted(Assign(s, items)))
  }

  /** The descriptor loop for any loop body `step`: the final slots and the calls made, in order. */
  function Fold(step: (Slots, JoinEntry) -> (Slots, seq<Op>), s: Slots, entries: seq<JoinEntry>): (Slots, seq<Op>)
    decreases |entries|
  {
    if |entries| == 0 then (s, [])
    else
      var here := step(s, entries[0]);
      var rest := Fold(step, here.0, entries[1..]);
      (rest.0, here.1 + rest.1)
  }

  /** Running a concatenation runs the second part from the slots the first left, whatever the body. */
  lemma {:induction false} FoldAppend(step: (Slots, JoinEntry) -> (Slots, seq<Op>), s: Slots, a: seq<JoinEntry>, b: seq<JoinEntry>)
    ensures Fold(step, s, a + b)
      == (Fold(step, Fold(step, s, a).0, b).0, Fold(step, s, a).1 + Fold(step, Fold(step, s, a).0, b).1)
    decreases |a|
  {
    if |a| == 0 {
      assert a + b == b;
      assert [] + Fold(step, s, b).1 == Fold(step, s, b).1;
    } else {
      var here := step(s, a[0]);
      assert (a + b)[0] == a[0] && (a + b)[1..] == a[1..] + b;
      FoldAppend(step, here.0, a[1..], b);
      var mid := Fold(step, here.0, a[1..]);
      var tail := Fold(step, mid.0, b);
      assert here.1 + (mid.1 + tail.1) == (here.1 + mid.1) + tail.1;
    }
  }

  /** Each loop body emits at most one call, and only joins. */
  lemma {:induction false} StepsEmitJoins(s: Slots, entries: seq<JoinEntry>)
    ensures |Fold(Step, s, entries).1| <= |entries|
    ensures AllJoins(Fold(Step, s, entries).1)
    decreases |entries|
  {
    if |entries| > 0 {
      var here := Step(s, entries[0]);
      StepsEmitJoins(here.0, entries[1..]);
      var rest := Fold(Step, here.0, entries[1..]).1;
      assert Fold(Step, s, entries).1 == here.1 + rest;
      assert AllJoins(here.1);
      assert forall k :: |here.1| <= k < |here.1 + rest| ==> (here.1 + rest)[k] == rest[k - |here.1|];
    }
  }

  /** applyJoin's loop from slots `s`: the final slots and the join calls made, in order. */
  function Run(s: Slots, entries: seq<JoinEntry>): (r: (Slots, seq<Op>))
    ensures |r.1| <= |entries|
    ensures AllJoins(r.1)
  {
    StepsEmitJoins(s, entries);
    Fold(Step, s, entries)
  }

  lemma RunOne(s: Slots, e: JoinEntry)
    ensures Run(s, [e]) == Step(s, e)
  {
    assert [e][1..] == [];
    var here := Step(s, e);
    assert Run(here.0, []) == (here.0, []);
    assert here.1 + [] == here.1;
  }

  /** applyJoin on a model whose table is `table` and key `key`. */
  function Compile(table: string, key: string, entries: seq<JoinEntry>): (r: seq<Op>)
    ensures |r| <= |entries|
    ensures AllJoins(r)
  {
    Run(Initial(table, key), entries).1
  }

  /** One unfolding of the loop. */
  lemma RunCons(s: Slots, entries: seq<JoinEntry>)
    requires |entries| > 0
    ensures Run(s, entries) == (Run(Step(s, entries[0]).0, entries[1..]).0,
                                Step(s, entries[0]).1 + Run(Step(s, entries[0]).0, entries[1..]).1)
  {
  }

  /** Running a concatenation runs the second part from the slots the first left. */
  lemma RunAppend(s: Slots, a: seq<JoinEntry>, b: seq<JoinEntry>)
    ensures Run(s, a + b) == (Run(Run(s, a).0, b).0, Run(s, a).1 + Run(Run(s, a).0, b).1)
  {
    FoldAppend(Step, s, a, b);
  }

  /** A descriptor that is not an array is skipped: no join, slots untouched. */
  lemma ScalarIsSkipped(s: Slots, v: Val, rest: seq<JoinEntry>)
    ensures Run(s, [Scalar(v)] + rest) == Run(s, rest)
  {
    assert ([Scalar(v)] + rest)[1..] == rest;
    assert [] + Run(s, rest).1 == Run(s, rest).1;
  }

  /**
   * A tuple of unsupported arity changes no slot, so whenever the slots
   * already describe a join it re-emits that same join.
   */
  lemma {:induction false} MalformedRepeatsJoin(s: Slots, items: seq<Val>)
    requires |items| < 2 || |items| > 5
    ensures Run(s, [Tuple(items)]) == (s, Emitted(s))
  {
    RunOne(s, Tuple(items));
    assert Assign(s, items) == s;
  }

  /**
   * After a descriptor that produced a join, a malformed one appends a copy of
   * that join.
   */
  lemma MalformedAfterValidDuplicates(table: string, key: string, prior: seq<JoinEntry>, good: seq<Val>, bad: seq<Val>)
    requires |bad| < 2 || |bad| > 5
    requires Emit(Assign(Run(Initial(table, key), prior).0, good)).Some?
    ensures var once := Compile(table, key, prior + [Tuple(good)]);
      |once| > 0 &&
      Compile(table, key, prior + [Tuple(good)] + [Tuple(bad)]) == once + [once[|once| - 1]]
  {
    var s0 := Initial(table, key);
    var sp := Run(s0, prior).0;
    var s1 := Assign(sp, good);
    RunAppend(s0, prior, [Tuple(good)]);
    RunOne(sp, Tuple(good));
    assert Run(sp, [Tuple(good)]) == (s1, [Emit(s1).value]);
    var once := Compile(table, key, prior + [Tuple(good)]);
    assert once == Run(s0, prior).1 + [Emit(s1).value];
    assert Run(s0, prior + [Tuple(good)]).0 == s1;
    RunAppend(s0, prior + [Tuple(good)], [Tuple(bad)]);
    MalformedRepeatsJoin(s1, bad);
  }

  /** A two-element tuple inherits the join type and primary side left by the previous one. */
  lemma PairInheritsEarlierSlots(table: string, key: string, first: seq<Val>, st: string, sk: string)
    requires 3 <= |first| <= 5 && Emit(Assign(Initial(table, key), first)).Some?
    requires st != "" && sk != ""
    ensures var s1 := Assign(Initial(table, key), first);
      Compile(table, key, [Tuple(first), Tuple([Str(st), Str(sk)])])
        == [Emit(s1).value, Join(KindOf(first[0]), st, st + "." + sk, s1.primaryTable.s + "." + Text(s1.primaryKey))]
  {
    var s0 := Initial(table, key);
    var s1 := Assign(s0, first);
    var pair := Tuple([Str(st), Str(sk)]);
    RunAppend(s0, [Tuple(first)], [pair]);
    assert [Tuple(first), pair] == [Tuple(first)] + [pair];
    RunOne(s0, Tuple(first));
    RunOne(s1, pair);
    var s2 := Assign(s1, [Str(st), Str(sk)]);
    assert s2.primaryTable == s1.primaryTable && s2.joinType == first[0];
  }
}

=== FILE: pagination.dfy ===
/**
 * The arithmetic of BaseRepository::pagination: the page window and the
 * response's from/to/last_page fields.
 */
module Pagination {
  import opened Wrappers

  /** Raised by `$total / $per_page` when the page size is zero. */
  datatype PageError = DivisionByZero

  /** The numeric fields of the pagination response. */
  datatype PageMeta = PageMeta(total: nat, perPage: int, currentPage: int, lastPage: int, from: int, to: int)

  /** PHP's `(int) ceil($t / $p)`: the least integer not below the exact quotient. */
  function CeilDiv(t: int, p: int): (r: int)
    requires p != 0
    ensures p > 0 ==> (r - 1) * p < t <= r * p
    ensures p < 0 ==> r * p <= t < (r - 1) * p
  {
    if p > 0 then
      var q := (-t) / p;
      var m := (-t) % p;
      assert -t == p * q + m && 0 <= m < p;
      assert (-q - 1) * p == t + m - p;
      assert (-q) * p == t + m;
      -q
    else
      var q := t / (-p);
      var m := t % (-p);
      assert t == (-p) * q + m && 0 <= m < -p;
      assert (-q) * p == t - m;
      assert (-q - 1) * p == t - m - p;
      -q
  }

  /** The skip/take pair applied to the query: only for a positive page size. */
  function Window(page: int, perPage: int): (w: Option<(int, int)>)
    ensures w.Some? <==> perPage > 0
    ensures w.Some? ==> w.value.0 == (page - 1) * perPage && w.value.1 == perPage
  {
    if perPage > 0 then
      var to := page * perPage;
      assert to - perPage == (page - 1) * perPage;
      Some((to - perPage, perPage))
    else None
  }

  /**
   * The response's numbers for `total` matching rows. A zero page size
   * reaches the unguarded division and fails.
   */
  function Meta(page: int, perPage: int, total: nat): (r: Result<PageMeta, PageError>)
    ensures r.Failure? <==> perPage == 0
    ensures r.Success? ==> r.value.total == total && r.value.perPage == perPage && r.value.currentPage == page
    ensures perPage > 0 ==> r.Success? && r.value.from == (page - 1) * perPage + 1
                             && r.value.to - r.value.from + 1 == perPage
    ensures perPage < 0 ==> r.Success? && r.value.from == 1 && r.value.to == total
    ensures perPage > 0 ==> (r.value.lastPage - 1) * perPage < total <= r.value.lastPage * perPage
    ensures perPage < 0 ==> r.value.lastPage * perPage <= total < (r.value.lastPage - 1) * perPage
  {
    if perPage == 0 then Failure(DivisionByZero)
    else
      var w := Window(page, perPage);
      var from := if w.Some? then w.value.0 + 1 else 1;
      var to := if w.Some? then page * perPage else total;
      Success(PageMeta(total, perPage, page, CeilDiv(total, perPage), from, to))
  }

  /** With a positive page size, the last page is the last one that holds a row. */
  lemma PageHasRowsIffWithinLastPage(page: int, perPage: int, total: nat)
    requires perPage > 0 && page >= 1
    ensures var m := Meta(page, perPage, total).value;
      m.from <= total <==> page <= m.lastPage
  {
    var m := Meta(page, perPage, total).value;
    var lp := m.lastPage;
    if page <= lp {
      MulMonotone(page - 1, lp - 1, perPage);
    } else {
      MulMonotone(lp, page - 1, perPage);
    }
  }

  lemma MulMonotone(a: int, b: int, p: int)
    requires a <= b && p > 0
    ensures a * p <= b * p
  {
    assert b * p - a * p == (b - a) * p;
  }

  /** Page 2 of 25 rows at 10 per page. */
  lemma SecondPageOfTwentyFive()
    ensures Meta(2, 10, 25) == Success(PageMeta(25, 10, 2, 3, 11, 20))
  {
  }

  /** `to` is not clamped to the total: the last page of 25 rows claims rows 21 to 30. */
  lemma LastPageToIsNotClamped()
    ensures Meta(3, 10, 25).value.to == 30
  {
  }
}

=== FILE: repository.dfy ===
/**
 * BaseRepository's state machine: the pending query (`model`), the criteria
 * stack, the skip flag and the scope. Every operation is a function from the
 * state before the call to what it sends to the store and the state after.
 * Which operations make the model fresh, clear the scope, both or neither is
 * the reset discipline stated in each contract.
 */
module Repository {
  import opened Wrappers
  import opened Builder
  import Criteria
  import Conditions
  import Pagination
  import Datatable

  /** The repository's mutable fields; a scope is an opaque closure tag. */
  datatype Repo = Repo(model: Query, criteria: seq<Criterion>, skipCriteria: bool, scope: Option<string>)

  /** One call: what it sent to the store, the state after it, and whether the store call threw. */
  datatype Call = Call(sent: Exec, after: Repo, thrown: bool)

  /** The state after `__construct`: fresh model, empty stack, skip off, no scope. */
  function New(): (r: Repo)
    ensures Clean(r) && r.criteria == [] && !r.skipCriteria
  {
    Repo([], [], false, None)
  }

  /** A model freshly made and no scope pending. */
  predicate Clean(r: Repo) {
    r.model == [] && r.scope.None?
  }

  /** resetModel: a fresh model; nothing else changes. */
  function ResetModel(r: Repo): (r': Repo)
    ensures r'.model == [] && r'.criteria == r.criteria && r'.skipCriteria == r.skipCriteria && r'.scope == r.scope
  {
    r.(model := [])
  }

  /** resetScope: no scope pending; nothing else changes. */
  function ResetScope(r: Repo): (r': Repo)
    ensures r'.scope.None? && r'.model == r.model && r'.criteria == r.criteria && r'.skipCriteria == r.skipCriteria
  {
    r.(scope := None)
  }

  /** scopeQuery: the new scope replaces any pending one; the model is not touched yet. */
  function ScopeQuery(r: Repo, scope: string): (r': Repo)
    ensures r'.scope == Some(scope) && r'.model == r.model && r'.criteria == r.criteria && r'.skipCriteria == r.skipCriteria
  {
    r.(scope := Some(scope))
  }

  /** initCriteria: an empty stack and the skip flag off. */
  function InitCriteria(r: Repo): (r': Repo)
    ensures r'.criteria == [] && !r'.skipCriteria && r'.model == r.model && r'.scope == r.scope
  {
    r.(criteria := [], skipCriteria := false)
  }

  /** skipCriteria: the flag only. */
  function SkipCriteria(r: Repo, status: bool): (r': Repo)
    ensures r'.skipCriteria == status && r'.model == r.model && r'.criteria == r.criteria && r'.scope == r.scope
  {
    r.(skipCriteria := status)
  }

  /**
   * pushCriteria on the repository's stack: only the first criterion of the
   * same class is dropped, every other one stays in its place.
   */
  function PushCriteria(r: Repo, c: Criterion): (r': Repo)
    ensures r'.criteria == Criteria.Push(r.criteria, c)
    ensures (forall j :: 0 <= j < |r.criteria| ==> r.criteria[j].cls != c.cls) ==> r'.criteria == r.criteria + [c]
    ensures forall i :: Criteria.FirstOfClass(r.criteria, c.cls, i) ==> r'.criteria == r.criteria[..i] + r.criteria[i + 1..] + [c]
    ensures Criteria.OnePerClass(r.criteria) ==> Criteria.OnePerClass(r'.criteria)
    ensures |r'.criteria| > 0 && r'.criteria[|r'.criteria| - 1] == c
    ensures r'.model == r.model && r'.scope == r.scope && r'.skipCriteria == r.skipCriteria
  {
    if Criteria.OnePerClass(r.criteria) then Criteria.PushKeepsOnePerClass(r.criteria, c); r.(criteria := Criteria.Push(r.criteria, c))
    else r.(criteria := Criteria.Push(r.criteria, c))
  }

  /** getByCriteria: apply one criterion at once, without stacking it. */
  function GetByCriteria(r: Repo, c: Criterion): (r': Repo)
    ensures r'.model == r.model + [Applied(c)]
    ensures r'.criteria == r.criteria && r'.scope == r.scope && r'.skipCriteria == r.skipCriteria
  {
    r.(model := r.model + [Applied(c)])
  }

  /** The log entries the stacked criteria add, in insertion order. */
  function CriteriaOps(stack: seq<Criterion>): Query {
    seq(|stack|, i requires 0 <= i < |stack| => Applied(stack[i]))
  }

  /** The log entry a pending scope adds. */
  function ScopeOps(scope: Option<string>): Query {
    if scope.Some? then [Scoped(scope.value)] else []
  }

  /**
   * applyCriteria. The guard evaluates the setter `skipCriteria()`, which
   * returns the repository and so is never `=== true`: the stack is always
   * applied, and the flag is left set.
   */
  function ApplyCriteria(r: Repo): (r': Repo)
    ensures r'.model == r.model + CriteriaOps(r.criteria)
    ensures r'.skipCriteria
    ensures r'.criteria == r.criteria && r'.scope == r.scope
  {
    var m := Criteria.ApplyAll(r.model, r.criteria);
    assert m == r.model + CriteriaOps(r.criteria);
    r.(model := m, skipCriteria := true)
  }

  /** applyScope: the scope transforms the model only when one is set. */
  function ApplyScope(r: Repo): (r': Repo)
    ensures r.scope.None? ==> r' == r
    ensures r.scope.Some? ==> r'.model == r.model + [Scoped(r.scope.value)]
    ensures r'.criteria == r.criteria && r'.scope == r.scope && r'.skipCriteria == r.skipCriteria
  {
    if r.scope.Some? then r.(model := r.model + [Scoped(r.scope.value)]) else r
  }

  /** The common prelude of reads: criteria, then scope. */
  function Prepare(r: Repo): (r': Repo)
    ensures r'.model == r.model + CriteriaOps(r.criteria) + ScopeOps(r.scope)
    ensures r'.skipCriteria && r'.criteria == r.criteria && r'.scope == r.scope
  {
    ApplyScope(ApplyCriteria(r))
  }

  /** A chainable modifier (orderBy, skip, take, limit, has, with, ...): one more builder call. */
  function Chain(r: Repo, op: Op): (r': Repo)
    ensures r'.model == r.model + [op]
    ensures r'.criteria == r.criteria && r'.scope == r.scope && r'.skipCriteria == r.skipCriteria
  {
    r.(model := r.model + [op])
  }

  /** A call that sends nothing to the store: the state after and whether it threw. */
  datatype Step = Step(after: Repo, thrown: bool)

  /**
   * hidden / visible: `setHidden` / `setVisible` on whatever the model holds,
   * without reassigning it. A Model takes the field list as serialisation
   * settings and the query is unchanged; a Builder forwards neither method
   * and throws. The field lists themselves are not part of the state here.
   */
  function SetVisibility(r: Repo, fields: seq<string>, visible: bool): (s: Step)
    ensures s.thrown <==> HoldsBuilder(r.model)
    ensures s.after == r
  {
    Step(r, HoldsBuilder(r.model))
  }

  /**
   * Unlike a chained modifier, hidden on a fresh model leaves it a Model, so
   * a following save still succeeds; after any chained call hidden throws.
   */
  lemma VisibilityKeepsModelFresh(r: Repo, fields: seq<string>, op: Op, data: Attributes)
    ensures r.model == [] ==> !SetVisibility(r, fields, false).thrown
                              && !Insert(SetVisibility(r, fields, false).after, Builder.Save(data)).thrown
    ensures Insert(Chain(r, op), Builder.Save(data)).thrown
    ensures SetVisibility(Chain(r, op), fields, false).thrown
  {
  }

  /** whereConditions: applyConditions on the pending model. */
  function WhereConditions(r: Repo, where: seq<Conditions.Entry>, or: bool): (r': Repo)
    ensures |r'.model| >= |r.model| && r'.model[..|r.model|] == r.model
    ensures forall k :: |r.model| <= k < |r'.model| ==> r'.model[k].Filter? && r'.model[k].cond.comb == Conditions.CombinatorOf(or)
    ensures r'.model[|r.model|..] == Filters(Conditions.Compile(where, or))
    ensures r'.criteria == r.criteria && r'.scope == r.scope && r'.skipCriteria == r.skipCriteria
  {
    var m := r.model + Filters(Conditions.Compile(where, or));
    assert m[..|r.model|] == r.model;
    assert m[|r.model|..] == Filters(Conditions.Compile(where, or));
    r.(model := m)
  }

  // ---- reads that reset both model and scope ----

  function All(r: Repo, columns: seq<string>): (c: Call)
    ensures c.sent == Exec(r.model + CriteriaOps(r.criteria) + ScopeOps(r.scope), Builder.Get(columns))
    ensures Clean(c.after) && c.after.criteria == r.criteria && c.after.skipCriteria && !c.thrown
  {
    var p := Prepare(r);
    Call(Exec(p.model, Builder.Get(columns)), ResetScope(ResetModel(p)), false)
  }

  // ---- reads that reset nothing ----

  /** get: like all, but the prepared model and the scope are kept for further chaining. */
  function Get(r: Repo, columns: seq<string>): (c: Call)
    ensures c.sent == Exec(r.model + CriteriaOps(r.criteria) + ScopeOps(r.scope), Builder.Get(columns))
    ensures c.after.model == c.sent.query && c.after.scope == r.scope
    ensures c.after.criteria == r.criteria && c.after.skipCriteria && !c.thrown
  {
    var p := Prepare(r);
    Call(Exec(p.model, Builder.Get(columns)), p, false)
  }

  /** count: the where-array is AND-ed in; both are reset only when `reset` is set. */
  function Count(r: Repo, where: seq<Conditions.Entry>, column: string, reset: bool): (c: Call)
    ensures c.sent.terminal == Builder.Count(column)
    ensures c.sent.query == r.model + CriteriaOps(r.criteria) + ScopeOps(r.scope) + Filters(Conditions.Compile(where, false))
    ensures reset ==> Clean(c.after)
    ensures !reset ==> c.after.model == c.sent.query && c.after.scope == r.scope
    ensures c.after.criteria == r.criteria && !c.thrown
  {
    var p := Prepare(r);
    var q := if |where| > 0 then WhereConditions(p, where, false) else p;
    assert q.model == p.model + Filters(Conditions.Compile(where, false));
    var sent := Exec(q.model, Builder.Count(column));
    Call(sent, if reset then ResetScope(ResetModel(q)) else q, false)
  }

  // ---- reads that reset the model only: the scope survives ----

  function Find(r: Repo, id: Val, columns: seq<string>): (c: Call)
    ensures c.sent == Exec(r.model + CriteriaOps(r.criteria) + ScopeOps(r.scope), Builder.Find(id, columns))
    ensures c.after.model == [] && c.after.scope == r.scope && c.after.criteria == r.criteria && !c.thrown
  {
    var p := Prepare(r);
    Call(Exec(p.model, Builder.Find(id, columns)), ResetModel(p), false)
  }

  function FindByField(r: Repo, field: Val, value: Val, columns: seq<string>): (c: Call)
    ensures c.sent == Exec(r.model + CriteriaOps(r.criteria) + ScopeOps(r.scope)
                             + [Filter(Cond(And, Basic(field, Some(Str("=")), value)))], Builder.Get(columns))
    ensures c.after.model == [] && c.after.scope == r.scope && c.after.criteria == r.criteria && !c.thrown
  {
    var p := Prepare(r);
    Call(Exec(p.model + [Filter(Cond(And, Basic(field, Some(Str("=")), value)))], Builder.Get(columns)), ResetModel(p), false)
  }

  function FindWhere(r: Repo, where: seq<Conditions.Entry>, columns: seq<string>, or: bool): (c: Call)
    ensures c.sent == Exec(r.model + CriteriaOps(r.criteria) + ScopeOps(r.scope)
                             + Filters(Conditions.Compile(where, or)), Builder.Get(columns))
    ensures c.after.model == [] && c.after.scope == r.scope && c.after.criteria == r.criteria && !c.thrown
  {
    var p := WhereConditions(Prepare(r), where, or);
    Call(Exec(p.model, Builder.Get(columns)), ResetModel(p), false)
  }

  /** Which of findWhereIn, findWhereNotIn and findWhereBetween. */
  datatype ListTest = InList | NotInList | BetweenBounds

  function ListClause(test: ListTest, field: Val, values: seq<Val>): Clause {
    match test
    case InList => In(field, values)
    case NotInList => NotIn(field, values)
    case BetweenBounds => Between(field, values)
  }

  function FindWhereList(r: Repo, test: ListTest, field: Val, values: seq<Val>, columns: seq<string>): (c: Call)
    ensures c.sent == Exec(r.model + CriteriaOps(r.criteria) + ScopeOps(r.scope)
                             + [Filter(Cond(And, ListClause(test, field, values)))], Builder.Get(columns))
    ensures c.after.model == [] && c.after.scope == r.scope && c.after.criteria == r.criteria && !c.thrown
  {
    var p := Prepare(r);
    Call(Exec(p.model + [Filter(Cond(And, ListClause(test, field, values)))], Builder.Get(columns)), ResetModel(p), false)
  }

  /**
   * first, firstOrCreate and firstOrNew: criteria then scope, and the model is
   * reset while the scope survives. Only the terminal call differs.
   */
  function FirstVariant(r: Repo, t: Terminal): (c: Call)
    requires t.First? || t.FirstOrCreate? || t.FirstOrNew?
    ensures c.sent == Exec(r.model + CriteriaOps(r.criteria) + ScopeOps(r.scope), t)
    ensures c.after.model == [] && c.after.scope == r.scope && c.after.criteria == r.criteria && !c.thrown
  {
    var p := Prepare(r);
    Call(Exec(p.model, t), ResetModel(p), false)
  }

  /** updateOrCreate: scope only, no criteria; the scope survives. */
  function UpdateOrCreate(r: Repo, attributes: Attributes, values: Attributes): (c: Call)
    ensures c.sent == Exec(r.model + ScopeOps(r.scope), Builder.UpdateOrCreate(attributes, values))
    ensures c.after.model == [] && c.after.scope == r.scope && c.after.criteria == r.criteria && !c.thrown
  {
    var p := ApplyScope(r);
    Call(Exec(p.model, Builder.UpdateOrCreate(attributes, values)), ResetModel(p), false)
  }

  // ---- writes that reset both ----

  /**
   * A fresh model is a Model instance; the first logged call turns it into an
   * Eloquent Builder, and every later call keeps it one.
   */
  predicate HoldsBuilder(q: Query) {
    q != []
  }

  /**
   * create and save: neither criteria nor scope is applied to the insert.
   * `save` is a Model method the Builder does not forward, so a save on a
   * pending query throws before any reset; `create` exists on both.
   */
  function Insert(r: Repo, t: Terminal): (c: Call)
    requires t.Create? || t.Save?
    ensures c.sent == Exec(r.model, t)
    ensures c.thrown <==> t.Save? && HoldsBuilder(r.model)
    ensures !c.thrown ==> Clean(c.after) && c.after.criteria == r.criteria && c.after.skipCriteria == r.skipCriteria
    ensures c.thrown ==> c.after == r
  {
    var thrown := t.Save? && HoldsBuilder(r.model);
    Call(Exec(r.model, t), if thrown then r else ResetScope(ResetModel(r)), thrown)
  }

  /**
   * update: scope only, then findOrFail, assign the attributes and save the
   * found row. When the id is missing (`found` false) the exception escapes
   * before any reset.
   */
  function Update(r: Repo, data: Attributes, id: Val, found: bool): (c: Call)
    ensures c.sent == Exec(r.model + ScopeOps(r.scope), FindAndUpdate(id, data))
    ensures c.thrown <==> !found
    ensures found ==> Clean(c.after)
    ensures !found ==> c.after.model == c.sent.query && c.after.scope == r.scope
    ensures c.after.criteria == r.criteria
  {
    var p := ApplyScope(r);
    Call(Exec(p.model, FindAndUpdate(id, data)), if found then ResetScope(ResetModel(p)) else p, !found)
  }

  /** updateBy: a mass update of the rows where `field` equals `value`. */
  function UpdateBy(r: Repo, field: string, value: Val, data: Attributes): (c: Call)
    ensures c.sent == Exec(r.model + ScopeOps(r.scope) + [Filter(Cond(And, Basic(Str(field), None, value)))], UpdateAll(data))
    ensures Clean(c.after) && c.after.criteria == r.criteria && !c.thrown
  {
    var p := ApplyScope(r);
    Call(Exec(p.model + [Filter(Cond(And, Basic(Str(field), None, value)))], UpdateAll(data)), ResetScope(ResetModel(p)), false)
  }

  /**
   * delete: destroy by id, or with `force` find-then-forceDelete, which throws
   * when the id is missing (`found` false), before any reset. `destroy` is a
   * static Model method the Builder does not forward, so a plain delete throws
   * whenever the scoped query is a Builder, again before any reset.
   */
  function Delete(r: Repo, id: Val, force: bool, found: bool): (c: Call)
    ensures c.sent == Exec(r.model + ScopeOps(r.scope), if force then ForceDeleteFound(id) else Destroy(id))
    ensures c.thrown <==> if force then !found else HoldsBuilder(c.sent.query)
    ensures !c.thrown ==> Clean(c.after)
    ensures c.thrown ==> c.after.model == c.sent.query && c.after.scope == r.scope
    ensures c.after.criteria == r.criteria
  {
    var p := ApplyScope(r);
    var thrown := if force then !found else HoldsBuilder(p.model);
    Call(Exec(p.model, if force then ForceDeleteFound(id) else Destroy(id)),
         if thrown then p else ResetScope(ResetModel(p)), thrown)
  }

  function DeleteWhere(r: Repo, where: seq<Conditions.Entry>, force: bool): (c: Call)
    ensures c.sent == Exec(r.model + ScopeOps(r.scope) + Filters(Conditions.Compile(where, false)),
                           if force then ForceDeleteAll else DeleteAll)
    ensures Clean(c.after) && c.after.criteria == r.criteria && !c.thrown
  {
    var p := WhereConditions(ApplyScope(r), where, false);
    Call(Exec(p.model, if force then ForceDeleteAll else DeleteAll), ResetScope(ResetModel(p)), false)
  }

  // ---- pluck and lists: criteria only, no scope, no reset ----

  /**
   * pluck and lists. Eloquent has had no `lists` since Laravel 5.3, so on the
   * Laravel versions this package needs (cursorPaginate, `App\Models`) the
   * call is forwarded down to the query builder and throws, after the
   * criteria have already been applied.
   */
  function PluckColumn(r: Repo, t: Terminal): (c: Call)
    requires t.Pluck? || t.Lists?
    ensures c.sent == Exec(r.model + CriteriaOps(r.criteria), t)
    ensures c.thrown <==> t.Lists?
    ensures c.after.model == c.sent.query && c.after.scope == r.scope && c.after.criteria == r.criteria
  {
    var p := ApplyCriteria(r);
    Call(Exec(p.model, t), p, t.Lists?)
  }

  /**
   * pluck resets nothing, so the next all() applies the criteria a second
   * time on top of the ones pluck left in the model.
   */
  lemma PluckLeavesCriteriaApplied(r: Repo, column: string, key: Option<string>, columns: seq<string>)
    ensures var c := PluckColumn(r, Pluck(column, key));
      !c.thrown && All(c.after, columns).sent.query == r.model + CriteriaOps(r.criteria) + CriteriaOps(r.criteria) + ScopeOps(r.scope)
  {
  }

  // ---- pagination ----

  /** PHP's `empty()` on a string: both "" and "0" are empty. */
  predicate EmptyString(s: string) {
    s == "" || s == "0"
  }

  /** The whereLike filter pagination adds when both search fields and a search term are given. */
  function SearchFilter(fields: seq<string>, search: string): Query {
    if |fields| > 0 && !EmptyString(search) then [Filter(Cond(And, Like(fields, search)))] else []
  }

  /** The skip/take calls of the page window. */
  function WindowOps(page: int, perPage: int): Query {
    match Pagination.Window(page, perPage)
    case None => []
    case Some(w) => [Skip(w.0), Take(w.1)]
  }

  /** The response numbers, the rows query, and the state after. */
  datatype PageCall = PageCall(meta: Result<Pagination.PageMeta, Pagination.PageError>, rows: Exec, after: Repo)

  /**
   * pagination: count the (searched) rows, fetch the page, compute the
   * response. A zero page size throws at the division after the fetch, so
   * nothing is reset. `$data` starts as the same object as `$this->model`,
   * so the search filter lands in `$this->model` too exactly when that is
   * already a Builder; on a Model, whereLike starts a new one.
   * `$this->model` itself.
   */
  function Paginated(r: Repo, page: int, perPage: int, searchFields: seq<string>, search: string,
                     count: Query -> nat): (c: PageCall)
    ensures var searched := r.model + CriteriaOps(r.criteria) + ScopeOps(r.scope) + SearchFilter(searchFields, search);
      && c.rows == Exec(searched + WindowOps(page, perPage), Builder.Get(["*"]))
      && (c.meta.Failure? <==> perPage == 0)
      && c.meta == Pagination.Meta(page, perPage, count(searched))
      && (c.meta.Success? ==> c.meta.value.total == count(searched) && Clean(c.after))
      && (c.meta.Failure? ==> c.after.scope == r.scope
                              && c.after.model == (if HoldsBuilder(r.model + CriteriaOps(r.criteria) + ScopeOps(r.scope))
                                                   then searched else r.model + CriteriaOps(r.criteria) + ScopeOps(r.scope)))
    ensures c.after.criteria == r.criteria
  {
    var p := Prepare(r);
    var searched := p.model + SearchFilter(searchFields, search);
    var total := count(searched);
    var meta := Pagination.Meta(page, perPage, total);
    var rows := Exec(searched + WindowOps(page, perPage), Builder.Get(["*"]));
    PageCall(meta, rows, if meta.Success? then ResetScope(ResetModel(p)) else p.(model := if HoldsBuilder(p.model) then searched else p.model))
  }

  /** The skip/take arguments are `from - 1` and the row count `to - from + 1` of the response. */
  lemma WindowMatchesMeta(page: int, perPage: int, total: nat)
    requires perPage > 0
    ensures var m := Pagination.Meta(page, perPage, total).value;
      WindowOps(page, perPage) == [Skip(m.from - 1), Take(m.to - m.from + 1)]
  {
  }

  /** Laravel's `offset` clamps a negative skip to zero. */
  function EffectiveOffset(skip: int): (n: nat)
    ensures skip >= 0 ==> n == skip
    ensures skip < 0 ==> n == 0
  {
    if skip < 0 then 0 else skip
  }

  /** For page 1 and beyond the rows fetched start at row `from` of the response. */
  lemma WindowFetchesFromThroughTo(page: int, perPage: int, total: nat)
    requires perPage > 0 && page >= 1
    ensures var m := Pagination.Meta(page, perPage, total).value;
      m.from >= 1 && EffectiveOffset(m.from - 1) + 1 == m.from
  {
    var m := Pagination.Meta(page, perPage, total).value;
    assert m.from == (page - 1) * perPage + 1;
    Pagination.MulMonotone(0, page - 1, perPage);
  }

  /**
   * For page 0 or below the skip is negative: the first `perPage` rows are
   * fetched, while the response reports a `from` of at most 0.
   */
  lemma NonPositivePageFetchesFirstRows(page: int, perPage: int, total: nat)
    requires perPage > 0 && page <= 0
    ensures var m := Pagination.Meta(page, perPage, total).value;
      m.from <= 0 && EffectiveOffset(m.from - 1) == 0 && WindowOps(page, perPage)[1] == Take(perPage)
  {
    var m := Pagination.Meta(page, perPage, total).value;
    assert m.from == (page - 1) * perPage + 1;
    assert (page - 1) * perPage <= -perPage by {
      assert (page - 1) * perPage == -((1 - page) * perPage);
      assert (1 - page) * perPage >= perPage by { Pagination.MulMonotone(1, 1 - page, perPage); }
    }
  }

  // ---- datatables ----

  /** The datatable reply and the state after. */
  datatype TableCall = TableCall(result: Result<Datatable.Reply, Datatable.DatatableError>, after: Repo)

  /**
   * datatable / datatableIlike (`like` is "like" or "ilike"): criteria and
   * scope, then the protocol translation; reset both on success, nothing when
   * an order entry throws. `$data` and `$this->model` stay one builder object
   * exactly when the prepared model is already a Builder.
   */
  function DatatableQuery(r: Repo, req: Datatable.Request, like: string, table: string, key: string,
                          count: Query -> nat): (c: TableCall)
    ensures c.result.Failure? <==> exists k :: 0 <= k < |req.order| && !Datatable.InRange(req.columns, req.order[k])
    ensures var base := r.model + CriteriaOps(r.criteria) + ScopeOps(r.scope);
      c.result.Success? ==>
        c.result.value.recordsTotal == count(base)
        && |c.result.value.rows.query| >= |base| && c.result.value.rows.query[..|base|] == base
    ensures c.result.Success? ==> Clean(c.after)
    ensures c.result.Failure? ==> c.after.scope == r.scope
    ensures c.after.criteria == r.criteria
  {
    var p := Prepare(r);
    var o := Datatable.Run(p.model, req, like, table, key, HoldsBuilder(p.model), count);
    TableCall(o.result, if o.result.Success? then ResetScope(ResetModel(p)) else p.(model := o.model))
  }

  /** The reply is the translation's, run on the model with criteria then scope applied. */
  lemma DatatableQueryTranslates(r: Repo, req: Datatable.Request, like: string, table: string, key: string,
                                 count: Query -> nat)
    ensures var base := r.model + CriteriaOps(r.criteria) + ScopeOps(r.scope);
      var o := Datatable.Run(base, req, like, table, key, HoldsBuilder(base), count);
      var c := DatatableQuery(r, req, like, table, key, count);
      c.result == o.result && (o.result.Failure? ==> c.after.model == o.model)
  {
  }

  // ---- the reset discipline, across calls ----

  /** The skip guard never fires: the flag does not change what applyCriteria does. */
  lemma SkipFlagIsIgnored(r: Repo, status: bool)
    ensures ApplyCriteria(SkipCriteria(r, status)).model == ApplyCriteria(r).model
    ensures |r.criteria| > 0 ==> |ApplyCriteria(SkipCriteria(r, true)).model| > |r.model|
  {
  }

  /** Right after initCriteria, applying the criteria leaves the model as it was. */
  lemma InitCriteriaMakesApplyIdentity(r: Repo)
    ensures ApplyCriteria(InitCriteria(r)).model == r.model
  {
    assert CriteriaOps([]) == [];
  }

  /** Pushing the same class twice applies only the later criterion, once, last. */
  lemma RepeatedPushAppliesLatestOnce(r: Repo, a: Criterion, b: Criterion)
    requires Criteria.OnePerClass(r.criteria) && a.cls == b.cls
    ensures ApplyCriteria(PushCriteria(PushCriteria(r, a), b)).model == ApplyCriteria(PushCriteria(r, b)).model
    ensures var m := ApplyCriteria(PushCriteria(r, b)).model; m[|m| - 1] == Applied(b)
  {
    Criteria.PushSameClassTwice(r.criteria, a, b);
  }

  /** From a clean state, all() can be repeated with the same effect: nothing leaks. */
  lemma AllIsRepeatable(r: Repo, columns: seq<string>)
    requires Clean(r)
    ensures All(All(r, columns).after, columns) == All(r, columns)
  {
  }

  lemma CriteriaOpsHaveNoScope(stack: seq<Criterion>, scope: string)
    ensures Scoped(scope) !in CriteriaOps(stack)
  {
    assert forall k :: 0 <= k < |CriteriaOps(stack)| ==> CriteriaOps(stack)[k].Applied?;
  }

  /** find() keeps the scope, so a following all() still applies it; all() drops it. */
  lemma ScopeSurvivesFindButNotAll(r: Repo, id: Val, columns: seq<string>)
    requires r.scope.Some?
    ensures Scoped(r.scope.value) in All(Find(r, id, columns).after, columns).sent.query
    ensures Scoped(r.scope.value) !in Find(All(r, columns).after, id, columns).sent.query
  {
    var q := All(Find(r, id, columns).after, columns).sent.query;
    assert q == [] + CriteriaOps(r.criteria) + [Scoped(r.scope.value)];
    assert q[|q| - 1] == Scoped(r.scope.value);
    assert Find(All(r, columns).after, id, columns).sent.query == [] + CriteriaOps(r.criteria) + [];
    CriteriaOpsHaveNoScope(r.criteria, r.scope.value);
  }

  /** get() keeps the prepared model: a second get() applies criteria and scope again. */
  lemma GetReappliesCriteria(r: Repo, columns: seq<string>)
    ensures var prelude := CriteriaOps(r.criteria) + ScopeOps(r.scope);
      Get(Get(r, columns).after, columns).sent.query == r.model + prelude + prelude
  {
  }

  /**
   * Only a clean repository can destroy by id: a pending scope or any chained
   * call makes the model a Builder, and the call throws.
   */
  lemma DestroyNeedsCleanRepository(r: Repo, id: Val, found: bool)
    ensures !Delete(r, id, false, found).thrown <==> Clean(r)
  {
  }

  /** Only a fresh model can be saved; the scope plays no part. */
  lemma SaveNeedsFreshModel(r: Repo, data: Attributes)
    ensures !Insert(r, Builder.Save(data)).thrown <==> r.model == []
    ensures !Insert(r, Builder.Save(data)).thrown <==> !Insert(ScopeQuery(r, "s"), Builder.Save(data)).thrown
  {
  }

  /**
   * A scoped destroy throws before the reset, so the scope is still pending
   * and the next all() runs on the scoped query with the scope applied again.
   */
  lemma ScopeLeaksPastFailedDestroy(r: Repo, scope: string, id: Val, found: bool, columns: seq<string>)
    ensures var c := Delete(ScopeQuery(r, scope), id, false, found);
      c.thrown && c.after.scope == Some(scope) &&
      All(c.after, columns).sent.query == r.model + [Scoped(scope)] + CriteriaOps(r.criteria) + [Scoped(scope)]
  {
  }
}

=== FILE: strings.dfy ===
/**
 * The PHP and Laravel string functions the generator uses, over byte-like
 * characters: suffix test, str_replace, Str::replaceLast, strtolower and
 * ucfirst (ASCII letters only, as PHP 8.2 and later do).
 */
module Strings {
  import opened Wrappers

  /** Str::endsWith with a non-empty needle. */
  predicate EndsWith(s: string, suffix: string) {
    |suffix| <= |s| && s[|s| - |suffix|..] == suffix
  }

  /** `pat` occurs in `s` starting at position `i`. */
  predicate OccursAt(s: string, pat: string, i: int) {
    0 <= i && i + |pat| <= |s| && s[i..i + |pat|] == pat
  }

  /** `s` has no occurrence of `pat` at all. */
  predicate Absent(s: string, pat: string) {
    forall i :: 0 <= i <= |s| - |pat| ==> !OccursAt(s, pat, i)
  }

  /** The occurrences of `pat` in `s[1..]` are those of `s`, one position earlier. */
  lemma OccursInTail(s: string, pat: string, i: int)
    requires |s| > 0 && 0 <= i
    ensures OccursAt(s[1..], pat, i) <==> OccursAt(s, pat, i + 1)
  {
    if i + |pat| <= |s| - 1 {
      assert s[1..][i..i + |pat|] == s[i + 1..i + 1 + |pat|];
    }
  }

  /** `s` begins with `pat`, compared character by character. */
  predicate StartsWith(s: string, pat: string)
    decreases |pat|
  {
    |pat| <= |s| && (|pat| == 0 || (s[0] == pat[0] && StartsWith(s[1..], pat[1..])))
  }

  lemma {:induction false} StartsWithIsOccurrence(s: string, pat: string)
    ensures StartsWith(s, pat) <==> OccursAt(s, pat, 0)
    decreases |pat|
  {
    if 0 < |pat| <= |s| {
      StartsWithIsOccurrence(s[1..], pat[1..]);
      assert s[..|pat|] == [s[0]] + s[1..][..|pat| - 1];
      assert pat == [pat[0]] + pat[1..];
    }
  }

  /**
   * str_replace: every non-overlapping occurrence of `pat`, scanning left to
   * right, becomes `rep`; an empty search string changes nothing. What the
   * result is made of is stated by the lemmas below.
   */
  function ReplaceAll(s: string, pat: string, rep: string): (r: string)
    ensures |pat| == 0 ==> r == s
    ensures |rep| <= |pat| ==> |r| <= |s|
    decreases |s|
  {
    if |pat| == 0 || |s| < |pat| then s
    else if StartsWith(s, pat) then rep + ReplaceAll(s[|pat|..], pat, rep)
    else [s[0]] + ReplaceAll(s[1..], pat, rep)
  }

  /** One step of str_replace's left-to-right scan. */
  lemma ReplaceAllStep(s: string, pat: string, rep: string)
    requires 0 < |pat| <= |s|
    ensures s[..|pat|] == pat ==> ReplaceAll(s, pat, rep) == rep + ReplaceAll(s[|pat|..], pat, rep)
    ensures s[..|pat|] != pat ==> ReplaceAll(s, pat, rep) == [s[0]] + ReplaceAll(s[1..], pat, rep)
  {
    StartsWithIsOccurrence(s, pat);
  }

  /** A subject without an occurrence comes back unchanged. */
  lemma {:induction false} ReplaceWithoutOccurrence(s: string, pat: string, rep: string)
    requires Absent(s, pat)
    ensures ReplaceAll(s, pat, rep) == s
    decreases |s|
  {
    if 0 < |pat| <= |s| {
      assert !OccursAt(s, pat, 0);
      ReplaceAllStep(s, pat, rep);
      forall i | 0 <= i <= |s| - 1 - |pat| ensures !OccursAt(s[1..], pat, i) {
        OccursInTail(s, pat, i);
      }
      ReplaceWithoutOccurrence(s[1..], pat, rep);
    }
  }

  /** Every character of the result comes from the subject or from the replacement. */
  lemma {:induction false} ReplaceKeepsCharacters(s: string, pat: string, rep: string)
    ensures forall k :: 0 <= k < |ReplaceAll(s, pat, rep)| ==> ReplaceAll(s, pat, rep)[k] in s || ReplaceAll(s, pat, rep)[k] in rep
    decreases |s|
  {
    if 0 < |pat| <= |s| {
      ReplaceAllStep(s, pat, rep);
      if s[..|pat|] == pat {
        ReplaceKeepsCharacters(s[|pat|..], pat, rep);
      } else {
        ReplaceKeepsCharacters(s[1..], pat, rep);
      }
    }
  }

  /** strpos restricted to start positions from `i` on. */
  function FirstFrom(s: string, pat: string, i: nat): (r: Option<nat>)
    ensures r.None? <==> forall j :: i <= j <= |s| - |pat| ==> !OccursAt(s, pat, j)
    ensures r.Some? ==> i <= r.value && OccursAt(s, pat, r.value) && forall j :: i <= j < r.value ==> !OccursAt(s, pat, j)
    decreases |s| - i
  {
    if i + |pat| > |s| then None
    else if OccursAt(s, pat, i) then Some(i)
    else FirstFrom(s, pat, i + 1)
  }

  /** strpos: the start of the leftmost occurrence. */
  function IndexOf(s: string, pat: string): (r: Option<nat>)
    ensures r.None? <==> Absent(s, pat)
    ensures r.Some? ==> OccursAt(s, pat, r.value) && forall j :: 0 <= j < r.value ==> !OccursAt(s, pat, j)
  {
    FirstFrom(s, pat, 0)
  }

  /**
   * str_replace at the leftmost occurrence: the text before it is kept, the
   * occurrence becomes `rep`, and the scan resumes after the occurrence.
   */
  lemma {:induction false} ReplaceAtLeftmost(s: string, pat: string, rep: string, i: nat)
    requires |pat| > 0 && OccursAt(s, pat, i)
    requires forall j :: 0 <= j < i ==> !OccursAt(s, pat, j)
    ensures ReplaceAll(s, pat, rep) == s[..i] + rep + ReplaceAll(s[i + |pat|..], pat, rep)
    decreases i
  {
    if i == 0 {
      ReplaceAllStep(s, pat, rep);
      assert s[..|pat|] == pat;
    } else {
      var t := s[1..];
      var tail := ReplaceAll(s[i + |pat|..], pat, rep);
      assert ReplaceAll(s, pat, rep) == [s[0]] + ReplaceAll(t, pat, rep) by {
        LeftmostInTail(s, pat, i);
        ReplaceAllStep(s, pat, rep);
      }
      assert ReplaceAll(t, pat, rep) == t[..i - 1] + rep + tail by {
        LeftmostInTail(s, pat, i);
        ReplaceAtLeftmost(t, pat, rep, i - 1);
        assert t[i - 1 + |pat|..] == s[i + |pat|..];
      }
      assert [s[0]] + t[..i - 1] == s[..i];
      Regroup([s[0]], t[..i - 1], rep, tail);
    }
  }

  /** Concatenation regrouped, for the step above. */
  lemma Regroup(a: string, b: string, c: string, d: string)
    ensures a + (b + c + d) == a + b + c + d
  {
  }

  /** A leftmost occurrence past the start is, one position earlier, the leftmost of the tail. */
  lemma LeftmostInTail(s: string, pat: string, i: nat)
    requires |pat| > 0 && i > 0 && OccursAt(s, pat, i)
    requires forall j :: 0 <= j < i ==> !OccursAt(s, pat, j)
    ensures s[..|pat|] != pat
    ensures OccursAt(s[1..], pat, i - 1)
    ensures forall j :: 0 <= j < i - 1 ==> !OccursAt(s[1..], pat, j)
  {
    assert !OccursAt(s, pat, 0);
    OccursInTail(s, pat, i - 1);
    forall j | 0 <= j < i - 1 ensures !OccursAt(s[1..], pat, j) {
      OccursInTail(s, pat, j);
    }
  }

  /**
   * The whole of str_replace for a non-empty search string: nothing changes
   * without an occurrence; otherwise the leftmost occurrence is replaced and
   * the rest of the subject after it is processed the same way. These two
   * cases determine the result for every subject.
   */
  lemma ReplaceAllSplitsAtFirst(s: string, pat: string, rep: string)
    requires |pat| > 0
    ensures IndexOf(s, pat).None? ==> ReplaceAll(s, pat, rep) == s
    ensures IndexOf(s, pat).Some? ==> var i := IndexOf(s, pat).value;
      ReplaceAll(s, pat, rep) == s[..i] + rep + ReplaceAll(s[i + |pat|..], pat, rep)
  {
    if IndexOf(s, pat).Some? {
      ReplaceAtLeftmost(s, pat, rep, IndexOf(s, pat).value);
    } else {
      ReplaceWithoutOccurrence(s, pat, rep);
    }
  }

  /** A strictly shorter replacement strictly shortens any subject that has an occurrence. */
  lemma ShorterReplacementShrinks(s: string, pat: string, rep: string)
    requires |rep| < |pat| && !Absent(s, pat)
    ensures |ReplaceAll(s, pat, rep)| < |s|
  {
    var i := IndexOf(s, pat).value;
    ReplaceAtLeftmost(s, pat, rep, i);
  }

  /**
   * One left-to-right pass: removing every occurrence can join the pieces
   * around it into a new occurrence, which stays in the result.
   */
  lemma RemovalCanFormNewOccurrence()
    ensures Absent("", "ab") && !Absent("aabb", "ab")
    ensures ReplaceAll("aabb", "ab", "") == "ab"
  {
    var s := "aabb";
    assert OccursAt(s, "ab", 1);
    assert s[..2][1] != "ab"[1];
    assert s[1..] == "abb";
    ReplaceAllStep(s, "ab", "");
    ReplaceAllStep("abb", "ab", "");
    assert "abb"[..2] == "ab" && "abb"[2..] == "b";
  }

  /** A subject that is exactly the search string becomes the replacement. */
  lemma ReplaceWhole(pat: string, rep: string)
    requires |pat| > 0
    ensures ReplaceAll(pat, pat, rep) == rep
  {
    ReplaceAllStep(pat, pat, rep);
    assert pat[|pat|..] == [];
  }

  /** Replacing a string by itself is the identity. */
  lemma {:induction false} ReplaceByItself(s: string, pat: string)
    ensures ReplaceAll(s, pat, pat) == s
    decreases |s|
  {
    if |pat| == 0 || |s| < |pat| {
    } else if s[..|pat|] == pat {
      ReplaceAllStep(s, pat, pat);
      ReplaceByItself(s[|pat|..], pat);
      assert s == s[..|pat|] + s[|pat|..];
    } else {
      ReplaceAllStep(s, pat, pat);
      ReplaceByItself(s[1..], pat);
      assert s == [s[0]] + s[1..];
    }
  }

  /** strrpos restricted to start positions up to `i`. */
  function LastFrom(s: string, pat: string, i: int): (r: Option<nat>)
    requires i + |pat| <= |s|
    ensures r.None? <==> forall j :: 0 <= j <= i ==> !OccursAt(s, pat, j)
    ensures r.Some? ==> r.value <= i && OccursAt(s, pat, r.value) && forall j :: r.value < j <= i ==> !OccursAt(s, pat, j)
    decreases i + 1
  {
    if i < 0 then None
    else if OccursAt(s, pat, i) then Some(i)
    else LastFrom(s, pat, i - 1)
  }

  /** strrpos: the start of the rightmost occurrence. */
  function LastIndexOf(s: string, pat: string): (r: Option<nat>)
    ensures r.None? <==> Absent(s, pat)
    ensures r.Some? ==> OccursAt(s, pat, r.value) && forall j :: r.value < j ==> !OccursAt(s, pat, j)
  {
    if |pat| > |s| then None else LastFrom(s, pat, |s| - |pat|)
  }

  /** Str::replaceLast: only the rightmost occurrence is replaced. */
  function ReplaceLast(s: string, pat: string, rep: string): (r: string)
    ensures |pat| == 0 || Absent(s, pat) ==> r == s
    ensures |pat| > 0 ==> forall i :: OccursAt(s, pat, i) && (forall j :: i < j ==> !OccursAt(s, pat, j)) ==>
      r == s[..i] + rep + s[i + |pat|..]
  {
    if |pat| == 0 then s
    else match LastIndexOf(s, pat)
      case None => s
      case Some(i) => s[..i] + rep + s[i + |pat|..]
  }

  predicate IsUpper(c: char) {
    'A' <= c <= 'Z'
  }

  predicate IsLower(c: char) {
    'a' <= c <= 'z'
  }

  function ToLowerChar(c: char): (d: char)
    ensures !IsUpper(d)
    ensures !IsUpper(c) ==> d == c
  {
    if IsUpper(c) then (c as int + 32) as char else c
  }

  function ToUpperChar(c: char): (d: char)
    ensures !IsLower(d)
    ensures !IsLower(c) ==> d == c
  {
    if IsLower(c) then (c as int - 32) as char else c
  }

  /** strtolower. */
  function Lower(s: string): (r: string)
    ensures |r| == |s|
    ensures forall k :: 0 <= k < |r| ==> r[k] == ToLowerChar(s[k]) && !IsUpper(r[k])
  {
    seq(|s|, k requires 0 <= k < |s| => ToLowerChar(s[k]))
  }

  /** strtolower leaves lower-case text as it is. */
  lemma LowerIdempotent(s: string)
    ensures Lower(Lower(s)) == Lower(s)
  {
    var once := Lower(s);
    assert forall k :: 0 <= k < |once| ==> Lower(once)[k] == once[k];
  }

  /** ucfirst. */
  function UcFirst(s: string): (r: string)
    ensures |r| == |s|
    ensures |s| > 0 ==> r[0] == ToUpperChar(s[0]) && r[1..] == s[1..]
  {
    if |s| == 0 then s else [ToUpperChar(s[0])] + s[1..]
  }
}

=== FILE: where_logic.dfy ===
/**
 * How a chain of where-calls reads as SQL: the builder joins the clauses with
 * their own AND/OR, drops the leading one, and AND binds tighter than OR.
 * The truth of a single clause on a row is left abstract (`sat`).
 */
module WhereLogic {
  import opened Builder

  /** True when the chain admits a row on which exactly the clauses `sat` accepts are true. */
  function Holds(conds: seq<Cond>, sat: Clause -> bool): bool {
    if |conds| == 0 then true else Scan(conds[1..], sat(conds[0].clause), false, sat)
  }

  /**
   * Left-to-right reading of the rest of a chain: `cur` is the AND-group being
   * built, `any` whether an earlier group was already true.
   */
  function Scan(rest: seq<Cond>, cur: bool, any: bool, sat: Clause -> bool): bool
    decreases |rest|
  {
    if |rest| == 0 then any || cur
    else if rest[0].comb == Or then Scan(rest[1..], sat(rest[0].clause), any || cur, sat)
    else Scan(rest[1..], cur && sat(rest[0].clause), any, sat)
  }

  predicate AllAnd(conds: seq<Cond>) {
    forall k :: 0 <= k < |conds| ==> conds[k].comb == And
  }

  predicate AllOr(conds: seq<Cond>) {
    forall k :: 0 <= k < |conds| ==> conds[k].comb == Or
  }

  lemma {:induction false} ScanAnd(rest: seq<Cond>, cur: bool, any: bool, sat: Clause -> bool)
    requires AllAnd(rest)
    ensures Scan(rest, cur, any, sat) <==> any || (cur && forall k :: 0 <= k < |rest| ==> sat(rest[k].clause))
    decreases |rest|
  {
    if |rest| > 0 {
      ScanAnd(rest[1..], cur && sat(rest[0].clause), any, sat);
      assert forall k :: 1 <= k < |rest| ==> rest[k] == rest[1..][k - 1];
    }
  }

  lemma {:induction false} ScanOr(rest: seq<Cond>, cur: bool, any: bool, sat: Clause -> bool)
    requires AllOr(rest)
    ensures Scan(rest, cur, any, sat) <==> any || cur || exists k :: 0 <= k < |rest| && sat(rest[k].clause)
    decreases |rest|
  {
    if |rest| > 0 {
      ScanOr(rest[1..], sat(rest[0].clause), any || cur, sat);
      assert forall k :: 1 <= k < |rest| ==> rest[k] == rest[1..][k - 1];
    }
  }

  /** A chain of `where` calls is the conjunction of its clauses. */
  lemma AndChainIsConjunction(conds: seq<Cond>, sat: Clause -> bool)
    requires AllAnd(conds)
    ensures Holds(conds, sat) <==> forall k :: 0 <= k < |conds| ==> sat(conds[k].clause)
  {
    if |conds| > 0 {
      ScanAnd(conds[1..], sat(conds[0].clause), false, sat);
      assert forall k :: 1 <= k < |conds| ==> conds[k] == conds[1..][k - 1];
    }
  }

  /**
   * A non-empty chain whose every call after the first is `orWhere` is the
   * disjunction of its clauses; the first call's combinator is ignored.
   */
  lemma OrChainIsDisjunction(conds: seq<Cond>, sat: Clause -> bool)
    requires |conds| > 0 && AllOr(conds[1..])
    ensures Holds(conds, sat) <==> exists k :: 0 <= k < |conds| && sat(conds[k].clause)
  {
    ScanOr(conds[1..], sat(conds[0].clause), false, sat);
    assert forall k :: 1 <= k < |conds| ==> conds[k] == conds[1..][k - 1];
    if exists k :: 0 <= k < |conds| && sat(conds[k].clause) {
      var k :| 0 <= k < |conds| && sat(conds[k].clause);
      if k > 0 {
        assert sat(conds[1..][k - 1].clause);
      }
    }
  }

  /** Reading `prefix + rest` is reading `rest` from the state `prefix` leaves behind. */
  lemma {:induction false} ScanAppend(a: seq<Cond>, b: seq<Cond>, cur: bool, any: bool, sat: Clause -> bool)
    requires |b| > 0 && b[0].comb == Or
    ensures Scan(a + b, cur, any, sat) == Scan(b[1..], sat(b[0].clause), Scan(a, cur, any, sat), sat)
    decreases |a|
  {
    if |a| == 0 {
      assert a + b == b;
    } else {
      assert (a + b)[1..] == a[1..] + b;
      if a[0].comb == Or {
        ScanAppend(a[1..], b, sat(a[0].clause), any || cur, sat);
      } else {
        ScanAppend(a[1..], b, cur && sat(a[0].clause), any, sat);
      }
    }
  }

  /**
   * `orWhere` calls appended after earlier filters (a criterion's, a scope's)
   * are OR-ed with them: a row that satisfies one appended clause passes
   * even when it fails every earlier filter.
   */
  lemma OrCallsEscapeEarlierFilters(prefix: seq<Cond>, ors: seq<Cond>, sat: Clause -> bool)
    requires |prefix| > 0 && |ors| > 0 && AllOr(ors)
    ensures Holds(prefix + ors, sat) <==> Holds(prefix, sat) || exists k :: 0 <= k < |ors| && sat(ors[k].clause)
  {
    assert (prefix + ors)[1..] == prefix[1..] + ors;
    ScanAppend(prefix[1..], ors, sat(prefix[0].clause), false, sat);
    ScanOr(ors[1..], sat(ors[0].clause), Scan(prefix[1..], sat(prefix[0].clause), false, sat), sat);
    assert forall k :: 1 <= k < |ors| ==> ors[k] == ors[1..][k - 1];
    if exists k :: 0 <= k < |ors| && sat(ors[k].clause) {
      var k :| 0 <= k < |ors| && sat(ors[k].clause);
      if k > 0 {
        assert sat(ors[1..][k - 1].clause);
      }
    }
  }
}

=== FILE: wrappers.dfy ===
/** Failure-compatible wrappers shared by every module of the model. */
module Wrappers {

  /** PHP's "maybe null": a value that may be absent. */
  datatype Option<+T> = None | Some(value: T)

  /** The outcome of an operation that can throw: a value, or the error it raised. */
  datatype Result<+T, +E> = Success(value: T) | Failure(error: E)
}
